=== FILE: README.md ===
# slack-winston, modelled in Dafny

slack-winston provides two winston transports, one for Slack and one for
HipChat. Each transport is a constructor that checks and defaults its options.
Each has a `_request` that turns a call's parameters into an HTTP request,
and three entry points:

- `log` posts one message;
- `query` asks the service for past messages;
- `stream` reads a streamed response as newline-delimited JSON.

This project models all of that as pure Dafny functions over an explicit
model of the JavaScript values involved, and proves what the code promises
about it.

Modules, in dependency order:

- `JsValue` models JavaScript values. It covers truthiness, `Object.keys(v).length`
  (which throws for `undefined` and `null`), the decimal text of a number, and
  `String(v)`. `JSON.stringify(v, null, 2)`, `JSON.stringify(v)` and
  `JSON.parse` are uninterpreted inputs (`Json`).
- `Lodash` models `_.defaults` for one source object.
- `Template` models `_.template` with the interpolation pattern
  `/\{\{(.*?)\}\}/g`. The template is scanned into text and fields, and the
  fields are filled from the data.
- `LineSplit` models `split(/\n+/)`.
- `LogStream` models the `data` handler of a stream: the buffer, the pieces it
  emits, and the `log` and `error` events. It also holds a character-by-character
  reference reader, and the corrected handler with its session (see Findings).
- `Transport` holds what both transports share:
  - the outgoing text;
  - lifting `path` and `auth` out of stream options;
  - `log` and `query`, and what their callbacks receive for a response.
- `Slack` models `lib/slack-winston.js`: the constructor, the metadata
  normalisation, the request and body, and `stream`. It also restates the
  repository's test as lemmas.
- `HipChat` models `lib/winston-hipchat.js`: the constructor, the metadata
  normalisation as written and guarded, the query-string request as written
  (it may throw) and guarded, `log`, `query` and `stream`.

The HTTP exchange is a parameter. A `Response` is either a connection failure
or a status code with a body. A call ends in a `Reply`: the callback is
answered, the callback is given an error, nothing is called back, or a
`TypeError` is thrown.

## Model

| member | source | states |
|---|---|---|
| JsValue.Truthy | lib/slack-winston.js:54 | `!!v` is false exactly for `undefined`, `null`, `false`, `0` and the empty string; every object, `Error`s included, is truthy |
| JsValue.KeyCount | lib/winston-hipchat.js:47 | `Object.keys` throws exactly for `undefined` and `null`; otherwise the count is the object's or `Error`'s enumerable own properties, a string's characters, and none for a boolean or number; a value with at least one key is truthy |
| JsValue.ToString | lib/slack-winston.js:73 | `String(v)`: a string is itself, a number its decimal text, `undefined` and `null` their names, and an `Error` its name and message joined by `": "`, or whichever is not empty |
| JsValue.NatStringRoundTrip | lib/slack-winston.js:123 | the decimal digits written for a status code read back as that code |
| JsValue.DecimalString | lib/slack-winston.js:123 | the text `+` gives a number is its digits, with a leading `-` for a negative, and reads back as the number |
| Lodash.Defaults | lib/slack-winston.js:25-33 | the result has the keys of both objects; a value that is not `undefined` is kept; a missing or `undefined` key takes the default; a key the defaults lack keeps its value, `undefined` included |
| Lodash.DefaultsIdempotent | lib/slack-winston.js:25-33 | filling in the same defaults a second time changes nothing |
| Lodash.DefaultsOfComplete | lib/winston-hipchat.js:22-27 | options that already set every defaulted key come back unchanged |
| Template.CloseFrom | lib/slack-winston.js:72 | the lazy `(.*?)` closes a field at the first `}}`, with no newline before it; with no close, every later `}}` has a newline before it |
| Template.Tokenize | lib/slack-winston.js:71-73 | every field the scan captures has a name the pattern can match: no newline and no `}}` in it |
| Template.TokenizeRoundTrip | lib/slack-winston.js:71-73 | the scan loses nothing: writing the text and fields back gives the template again |
| Template.RenderTextPrefix | lib/slack-winston.js:71-73 | template text without `{` is copied unchanged ahead of the rest of the rendering |
| Template.Interpolate | lib/slack-winston.js:71-73 | a field's value other than `null` and `undefined` contributes `String(v)`, and the text is empty exactly for `null`, `undefined`, the empty string and an `Error` with neither name nor message |
| Template.Render | lib/slack-winston.js:71-73 | `_.template` with the `{{ }}` pattern: a template in which `{{` never occurs renders as itself |
| Template.FillVerbatim | lib/slack-winston.js:71-73 | a template without `{{` is scanned into its characters, which fill back as the template |
| Template.FillReadsFields | lib/slack-winston.js:71-73 | filling pieces reads the data only at the names of their fields |
| Template.RenderReadsFields | lib/slack-winston.js:71-73 | data that agree on the template's field names render it alike |
| Template.CloseAfterName | lib/slack-winston.js:72 | a field whose name has no `}` and no newline closes at the `}}` right after the name |
| Template.RenderField | lib/slack-winston.js:71-73 | `{{n}}` becomes the data's `n`, or nothing for `null` and `undefined`, followed by the rendering of the rest |
| Template.RenderTwoFields | lib/slack-winston.js:71-73 | a template of two fields, each followed by plain text, renders field, text, field, text |
| Template.FencedMetaRendering | test/slack-winston.spec.js:11 | the test's template gives the message, a blank line and the metadata in a code fence |
| LineSplit.FirstNewline | lib/slack-winston.js:210 | the index of the first newline, with none before it |
| LineSplit.RunEnd | lib/slack-winston.js:210 | a run of newlines ends just before the first character that is not a newline |
| LineSplit.Split | lib/slack-winston.js:210 | the split has at least one piece, and no piece has a newline in it |
| LineSplit.SplitKeepsText | lib/slack-winston.js:210 | the pieces written one after the other are the text with its newlines removed |
| LineSplit.SplitJoinCollapses | lib/slack-winston.js:210 | joining the pieces with one newline each gives the text with every run of newlines shortened to one |
| LineSplit.SplitAround | lib/slack-winston.js:210 | a piece, a run of newlines and a rest that does not start with a newline split into the piece and then the split of the rest |
| LineSplit.SplitNewlineFree | lib/slack-winston.js:210 | text without a newline is a single piece |
| LineSplit.FlattenAppend | lib/slack-winston.js:210 | writing out two lists of pieces is writing out each in turn |
| LineSplit.StripAppend | lib/slack-winston.js:210 | removing newlines from joined text is removing them from each part |
| LogStream.Step | lib/slack-winston.js:208-223 | after one chunk, the buffer and every emitted piece are free of newlines |
| LogStream.Run | lib/slack-winston.js:206-223 | starting from a buffer without newlines, every chunk handled in turn leaves it and the pieces free of newlines |
| LogStream.StepKeepsText | lib/slack-winston.js:210-222 | one chunk: the pieces emitted, then the buffer kept, are the buffer and chunk without their newlines |
| LogStream.RunKeepsText | lib/slack-winston.js:206-223 | all chunks: what is emitted, then what is held back, is everything received without its newlines |
| LogStream.ConservedAcrossSteps | lib/slack-winston.js:208-223 | text kept by one chunk's step and by the steps after it is kept across both |
| LogStream.Events | lib/slack-winston.js:214-220 | one event per piece, in order; a `log` event exactly when the piece parses, carrying the parsed value; otherwise an `error` event for that piece |
| LogStream.Consume | lib/slack-winston.js:206-223 | as written: one event per emitted piece, in order, a `log` event exactly for the pieces that parse and an `error` event for the others; the buffer holds no newline, and the pieces then the buffer are everything received without its newlines |
| LogStream.ConsumeSkippingBlank | lib/slack-winston.js:206-223 | corrected: the events are those of the pieces the handler as written emits less the empty ones, so no error event is for an empty piece; the buffer is that of the handler as written, and no text is lost |
| LogStream.ConsumeSkippingBlankIgnoresChunking | lib/slack-winston.js:206-223 | the corrected session depends only on the text received, not on how it was cut into chunks |
| LogStream.RunCons | lib/slack-winston.js:208-223 | handling a first chunk and then the rest is handling them all |
| LogStream.RunAppend | lib/slack-winston.js:208-223 | chunks handled in two batches give what one batch gives: later chunks' pieces come after earlier ones' |
| LogStream.RunOne | lib/slack-winston.js:208-223 | handling a single chunk is one step |
| LogStream.RunTwo | lib/slack-winston.js:208-223 | handling two chunks is two steps, the second from the first's buffer |
| LogStream.StepFromSplit | lib/slack-winston.js:210-222 | a step emits every piece but the last and keeps the last |
| LogStream.StepLineThenPartial | lib/slack-winston.js:210-222 | a chunk of a line, a newline and a partial line emits the line and keeps the partial line |
| LogStream.StepCompletesLine | lib/slack-winston.js:210-222 | a chunk that ends the buffered partial line emits the joined line and keeps nothing |
| LogStream.LineAcrossChunks | lib/slack-winston.js:208-223 | a line cut across two chunks is held back and emitted whole once its newline arrives |
| LogStream.SplitObjectExample | lib/slack-winston.js:208-223 | `{"a":1}` newline `{"b":2` then `}` newline emits the two objects' texts and keeps nothing |
| LogStream.BlankLineAtBoundary | lib/slack-winston.js:210 | as written: a blank line cut at its first newline makes the handler emit an empty piece between the two lines |
| LogStream.StepLeadingNewline | lib/slack-winston.js:210 | a chunk that starts with a newline while nothing is buffered gives an empty first piece |
| LogStream.BlankLineInsideChunk | lib/slack-winston.js:210 | the same text in one chunk emits the two lines only |
| LogStream.NonEmptyAppend | lib/slack-winston.js:214-220 | dropping empty pieces from two lists in turn is dropping them from the joined list |
| LogStream.FlattenNonEmpty | lib/slack-winston.js:214-220 | dropping empty pieces loses no text |
| LogStream.NonEmptyKeeps | lib/slack-winston.js:214-220 | pieces that are all non-empty pass through unchanged |
| LogStream.StepSkippingBlank | lib/slack-winston.js:210-222 | the corrected step keeps no newline in its buffer and emits no empty piece |
| LogStream.RunSkippingBlank | lib/slack-winston.js:206-223 | the corrected handler over all chunks keeps no newline in its buffer |
| LogStream.SkippingBlankFiltersRun | lib/slack-winston.js:206-223 | the corrected handler emits exactly the non-empty pieces of the handler as written, and keeps the same buffer |
| LogStream.PushAllAppend | lib/slack-winston.js:208-223 | the character reader reads joined text as the first part, then the second |
| LogStream.PushAllText | lib/slack-winston.js:208-223 | the character reader appends text without newlines to its line |
| LogStream.PushAllRun | lib/slack-winston.js:208-223 | with an empty line, the character reader ignores a run of newlines |
| LogStream.PushAllPieceAndRun | lib/slack-winston.js:210 | the character reader emits a piece at the run of newlines after it, unless the piece is empty |
| LogStream.PushAllIsSplit | lib/slack-winston.js:210-222 | splitting a text and emitting its non-empty complete pieces is what the character reader does from an empty line |
| LogStream.StepSkippingBlankReads | lib/slack-winston.js:210-222 | one step of the corrected handler is the character reader over the buffer and chunk |
| LogStream.RunSkippingBlankReadsCharacters | lib/slack-winston.js:206-223 | the corrected handler over any chunking is the character reader over everything received |
| LogStream.ReadsFromStart | lib/slack-winston.js:206-223 | from an empty buffer, the corrected handler is the character reader over the concatenated chunks |
| LogStream.ChunkingIrrelevant | lib/slack-winston.js:206-223 | with empty pieces skipped, what is emitted and kept depends only on the text received, not on the chunk boundaries |
| LogStream.BlankLineAtBoundaryCorrected | lib/slack-winston.js:206-223 | the corrected handler emits just the two lines for the chunking that trips the handler as written |
| Transport.Text | lib/slack-winston.js:71-73 | a configured template is rendered over the parameters; without one, the message, then a blank line and the metadata when that is truthy |
| Transport.PlainTextIsMessageThenMeta | lib/slack-winston.js:73 | without a template, for a string message and non-empty string metadata, the text is what `{{message}}`, a blank line, `{{meta}}` renders to |
| Transport.PlainTextIsMessage | lib/slack-winston.js:73 | without a template, for a string message and falsy metadata, the text is what `{{message}}` renders to |
| Transport.Lift | lib/slack-winston.js:195-203 | a truthy key is moved out of the parameters, and any other is left in place |
| Transport.Hoist | lib/slack-winston.js:184-203 | `path` and `auth` are lifted exactly when truthy, none stays behind truthy, every other option (a falsy `path` or `auth` included) stays a parameter with its value, and no key is added |
| Transport.HoistRoundTrip | lib/slack-winston.js:190-203 | putting lifted `path` and `auth` back gives the stream options again |
| Transport.LogParams | lib/slack-winston.js:106-118 | the parameters are message, metadata and level; a callback given as the metadata leaves `{}` as the metadata |
| Transport.StatusMessage | lib/slack-winston.js:122-124 | the error text starts with the transport's prefix and `HTTP Status Code: ` |
| Transport.StatusMessageNamesStatus | lib/slack-winston.js:123 | the status code can be read back from the end of the error text |
| Transport.LogReply | lib/slack-winston.js:120-133 | a connection error is passed on to a callback function; a status other than 200 gives it the error naming the status; 200 gives it `(null, true)`; with no function, an error throws `callback is not a function`, and so does 200 with a truthy non-function, while 200 with a falsy one ends quietly |
| Transport.LogSucceedsIffOk | lib/slack-winston.js:120-133 | a `log` call ends without an error exactly when the service answers 200 and the fourth argument is a function or falsy |
| Transport.Log | lib/slack-winston.js:101-134 | silent: nothing is sent, and a callback function gets `(null, true)` while anything else throws; otherwise the parameters are sent, and each response ends as `LogReply` says, with a function given as the metadata taking the callback's place |
| Transport.QueryReply | lib/slack-winston.js:155-171 | a connection error is passed on; a status other than 200 gives the error naming the status; on 200 a value body is handed over as it is, and a text body parsed, or the parse error when it does not parse; the callback is always called |
| Transport.Query | lib/slack-winston.js:142-172 | the query goes out as the parameters, and each response ends as `QueryReply` says |
| Transport.QueryAnswersParsedBody | lib/slack-winston.js:162-170 | a 200 text body is handed over parsed exactly when it parses, and as the parse error exactly when it does not |
| Transport.LogAndQueryFailAlike | lib/slack-winston.js:120-171 | `log` and `query` report an error on the same responses when the body needs no parsing |
| Slack.Construct | lib/slack-winston.js:15-34 | succeeds exactly with a webhook URL or a domain and a token; the domain error comes first; the options are exactly those given filled in by `_.defaults`, so given values are kept, missing ones defaulted and no other key added; `attachments` defaults to `null` |
| Slack.ConstructIdempotent | lib/slack-winston.js:18-33 | constructing again from a transport's options gives the same options |
| Slack.NormalizeMeta | lib/slack-winston.js:53-63 | falsy metadata becomes empty text; an `Error` gives its message and stack; metadata with keys becomes its JSON text, and metadata without keys empty text; nothing else changes |
| Slack.HookUrl | lib/slack-winston.js:84 | the incoming-webhook address is `https://`, the domain as `String` writes it, then `.slack.com/services/hooks/incoming-webhook`, so the domain reads back from it |
| Slack.AttachmentsFor | lib/slack-winston.js:77 | a fixed `attachments` value is sent as it is; a function is called with the parameters and metadata it is given |
| Slack.BuildRequest | lib/slack-winston.js:49-91 | webhook URL and no query string, or the domain's hook URL and the token; the text from `Text`; attachments fixed or computed from the normalised parameters and the original metadata; the body is the payload's JSON text without indentation (`JSON.stringify(v)`), while the metadata inside it is indented by two spaces |
| Slack.WebhookIgnoresDomainAndToken | lib/slack-winston.js:64-87 | with a webhook URL, changing the domain or token changes neither URL nor query string |
| Slack.ErrorMetaText | lib/slack-winston.js:56-58 | without a template, an `Error` as metadata, whatever its other properties, sends its message, then its stack after a blank line when there is one |
| Slack.PlainMessageText | lib/slack-winston.js:53-73 | without a template, the message is followed by the metadata's JSON text only when that metadata has keys |
| Slack.CallbackAsMetaSendsMessage | lib/slack-winston.js:106-109 | a callback passed in place of the metadata sends the message alone |
| Slack.TestConfigConstructs | test/slack-winston.spec.js:6-19 | the test's configuration constructs and keeps its webhook, template, user name and emoji |
| Slack.FencedTemplateEmptyMeta | test/slack-winston.spec.js:11 | with the fenced template, empty metadata sends the message, a blank line and an empty fence |
| Slack.FencedWebhookLogs | test/slack-winston.spec.js:21-32 | with the fenced template and a webhook answering 200, the callback gets `(null, true)` and the request has that text, that URL and no query string |
| Slack.TestConfigLogs | test/slack-winston.spec.js:21-32 | the test's `log('info', 'TestMessage', {}, cb)` against a 200 answer gives `(null, true)`, with the test's URL, user name and emoji |
| Slack.RateLimitIsAnError | lib/slack-winston.js:120-126 | a 429 answer gives the callback the status error at once; nothing is sent again |
| Slack.RateLimitMessage | lib/slack-winston.js:123 | the error text for 429 ends in the digits `429` |
| Slack.Stream | lib/slack-winston.js:179-230 | the request is the one `_request` builds for the stream's call (URL, query string, payload and body included); `path` and `auth` come from truthy options; the rest are the normalised parameters; the events are those of the pieces the handler as written emits, and the buffer is its buffer |
| HipChat.Construct | lib/winston-hipchat.js:15-28 | succeeds exactly with a room and a token; the room error comes first; the options are exactly those given filled in by `_.defaults`, so given values are kept, missing ones defaulted and no other key added |
| HipChat.ConstructIdempotent | lib/winston-hipchat.js:18-27 | constructing again from a transport's options gives the same options |
| HipChat.NormalizeMeta | lib/winston-hipchat.js:47 | as written: throws exactly for `undefined` or `null` metadata; otherwise metadata with keys becomes its JSON text and other metadata empty text |
| HipChat.NormalizeMetaGuarded | lib/winston-hipchat.js:47 | corrected: never throws; metadata with keys becomes its JSON text, and everything else empty text |
| HipChat.GuardedNormalizeIsSlacks | lib/slack-winston.js:53-63 | for all metadata but an `Error`, the guarded normalisation is exactly Slack's |
| HipChat.GuardedNormalizeAgrees | lib/winston-hipchat.js:47 | the guarded normalisation equals the one as written wherever that does not throw, and gives empty metadata where it does |
| HipChat.BuildRequestGuarded | lib/winston-hipchat.js:43-62 | corrected, using the guarded normalisation: fixed URL; room, sender, token, colour and format from the options; `notify` 1 exactly when truthy, else 0; the message from `Text` |
| HipChat.BuildRequest | lib/winston-hipchat.js:43-62 | as written, using the normalisation as written: throws `Cannot convert undefined or null to object` exactly for `undefined` or `null` metadata, and otherwise builds the request of `BuildRequestGuarded` |
| HipChat.PlainMessageText | lib/winston-hipchat.js:47-57 | as written, without a template: `_request` throws exactly when the metadata is missing, and otherwise the message is followed by the metadata's JSON text only when the metadata has keys |
| HipChat.PlainMessageTextGuarded | lib/winston-hipchat.js:55-57 | with the guard, without a template: the message is followed by the metadata's JSON text only when the metadata has keys, and is sent alone when it is missing |
| HipChat.Log | lib/winston-hipchat.js:72-104 | silent: as `Transport.Log`; missing metadata: `_request` throws, nothing is sent and no callback is called; otherwise the request of `BuildRequestGuarded` is sent and the reply is that of `Transport.Log` |
| HipChat.Query | lib/winston-hipchat.js:112-142 | query parameters without a usable `meta` make `_request` throw and nothing is sent; otherwise the request of `BuildRequestGuarded` is sent and the reply is that of `Transport.Query` |
| HipChat.LogWithoutMetaSendsMessage | lib/winston-hipchat.js:72-104 | `log` with missing metadata throws as written, and with the guard sends the message alone |
| HipChat.Stream | lib/winston-hipchat.js:149-201 | as written: throws exactly when the parameters carry no usable `meta`; otherwise the request is the one `BuildRequestGuarded` builds for the stream's call (URL and query string included), `path` and `auth` come from truthy options, the rest are the normalised parameters, and the events and buffer are those of the handler as written |
| HipChat.StreamWithoutMetaThrows | lib/winston-hipchat.js:149-175 | as written, a stream opened without options, or without a `meta` option, throws |

The `log` and `query` of lib/winston-hipchat.js (lines 72-104 and 112-142)
are line for line those of lib/slack-winston.js. Only the error prefix of
`log` differs (`HipChat.LogPrefix`). `Transport.Log` and `Transport.Query`
model both. For HipChat, `HipChat.Log` and `HipChat.Query` reach those
replies only when `_request` does not throw; when the metadata is missing,
the call throws before anything is sent. Slack's `_request` handles missing
metadata, but with a configured template either transport's `_request` can
still throw, which the model does not show (see `Template.Render` under
"Left out").

## Left out

- `winston.Transport.call`, `util.inherits` and the `name` property: these are winston's base class and carry no logic here.
- The `request` library call and the HTTP exchange are left out. The request
  is the value handed to `request`, and the response is a parameter.
- `emit('logged')`, `stream.destroy` and the stream's `req.on('error')`
  relay are left out. They are event plumbing with no data logic.
- `Slack.Construct`: the `options || {}` fallback is not modelled. The
  source reads `options.webhook_url` before it, so missing options already
  throw a `TypeError`. The model always takes an options object.
- `HipChat.Construct`: the same holds for `options.room`.
- `_.defaults` mutates the options object in place. The model returns the
  filled-in options instead.
- `Transport.Hoist` returns new parameters, while `stream` deletes `path` and
  `auth` from the caller's own options object. `_request` then overwrites
  that object's `meta`, and Slack's `Error` case also overwrites its
  `message`. Reusing one options object for a second `stream` call therefore
  sends no `path` or `auth`, and in Slack it JSON-quotes the metadata text a
  second time. The model treats each call's options as fresh.
- `normalizeQuery` belongs to winston and is not part of this model. `Transport.Query` takes its result as given.
- `Transport.Query` takes the query callback to be a function. The source
  calls it unguarded, so a missing callback throws; that case is not modelled.
- Whether winston's `normalizeQuery` puts a `meta` into the query is not
  modelled. `HipChat.Query` takes the query as given and throws exactly when
  its `meta` is `undefined` or `null`.
- `Slack.Options` holds `attachments` apart from the other options, so an
  `attachments` entry among the other fields is ignored.
- Stream options that are not objects (a string, a number) are not modelled; options are an object or absent.
- `_.template` has more behaviour than the model covers:
  - its `<% %>` evaluate and `<%- %>` escape delimiters are left out;
  - a field's captured text is looked up as a property name, not evaluated
    as a JavaScript expression;
  - only `\n` ends a field, while JavaScript's `.` also excludes `\r`,
    U+2028 and U+2029.
- `Template.Render` gives nothing for a field whose name is not a key of the
  data. The three-argument `_.template(text, data, options)` that
  lib/slack-winston.js:71 and lib/winston-hipchat.js:55 call is the form of
  lodash 2 and earlier. Those versions evaluate each field inside
  `with (data)`, so an unbound name throws a `ReferenceError` unless a global
  of that name exists. With the template `{{message}}` and `{{meta}}`, a
  `stream()` call has parameters `{meta: ''}`, so `_request` throws
  `message is not defined`. A `query()` call fails the same way unless the
  caller passes a `message`. The model renders the empty text there instead.
  `Template.RenderReadsFields` shows which names a rendering depends on.
- `util.format('%s', domain)` is modelled by `String(domain)`. The two agree for strings, which is what a domain is.
- `JSON.stringify(meta, null, 2)`, `JSON.stringify(v)` and `JSON.parse` are inputs, not definitions. `HipChat.PlainMessageText` and `Slack.PlainMessageText` therefore carry the condition that the JSON text is not empty, which real `JSON.stringify` guarantees for an object with keys.
- `LogStream.Step` takes each chunk as text. The source gets `Buffer` chunks,
  and `buff + data` decodes each one as UTF-8 on its own. A multi-byte
  character cut across two chunks therefore becomes U+FFFD replacement
  characters there, and the model does not show this.
- `LogStream.Run`: the same per-chunk decoding is left out for a sequence of
  chunks.
- `JsValue.Value` keeps an object's properties in a map, so their insertion
  order, which `JSON.stringify` follows, is not represented. The JSON text is
  an input function of the value, so two objects with the same properties
  in different orders get the same text.
- `JsValue.KeyCount` follows ES2015, where `Object.keys` of a string, number
  or boolean returns that primitive's keys. Before ES2015, as in Node
  releases before 4, it throws a `TypeError` for every non-object. The model
  assumes an ES2015 runtime.
- `JsValue.ToString` takes an `Error`'s `name` and `message` to be strings,
  as they are for `Error` and its built-in subclasses.
- Numbers are integers. Floating-point metadata and status codes are not modelled.
- Arrays and functions as option values are not modelled. The exception is
  `attachments`, which may be a function.
- The repository's test at test/slack-winston.spec.js:34-53 expects a 429
  answer to be retried after `Retry-After`. The code has no retry: a 429 is
  reported like any other status. The model follows the code
  (`Slack.RateLimitIsAnError`).

## Findings

| source | as written | input that shows it | evidently intended | confidence | as-written member | corrected member |
|---|---|---|---|---|---|---|
| lib/slack-winston.js:210 | each chunk is joined to the buffer and split on runs of newlines; every piece but the last is parsed | chunks `p\n` and `\nq\n` emit `p`, an empty piece (a `JSON.parse('')` error event) and `q`, where the same text in one chunk emits `p` and `q` | a run of newlines is one separator wherever chunk boundaries fall, so no empty piece is emitted | medium, not executed | LogStream.BlankLineAtBoundary | LogStream.ConsumeSkippingBlank |
| lib/winston-hipchat.js:47 | `Object.keys(options.params.meta)` with no guard | a stream opened without a `meta` option, or any query (winston's query options carry no `meta`), throws `Cannot convert undefined or null to object` | missing metadata becomes empty text, as lib/slack-winston.js:54-55 does | high, not executed | HipChat.StreamWithoutMetaThrows | HipChat.BuildRequestGuarded |

In the first row, `LogStream.RunSkippingBlank` is the corrected handler and
`LogStream.ConsumeSkippingBlank` its session.
`LogStream.SkippingBlankFiltersRun` relates it to the handler as written.
`LogStream.ChunkingIrrelevant` and
`LogStream.ConsumeSkippingBlankIgnoresChunking` prove that chunk boundaries no
longer matter. `LogStream.BlankLineAtBoundaryCorrected` shows the corrected
handler on the input above. `LogStream.Consume` and both `Stream` functions
model the handler as written.

In the second row, `HipChat.NormalizeMetaGuarded` is the corrected
normalisation. `HipChat.BuildRequestGuarded` builds the corrected request
from it and never throws. `HipChat.GuardedNormalizeAgrees` and
`HipChat.BuildRequest` show that it agrees with the code as written wherever
that code does not throw. `HipChat.BuildRequest`, `HipChat.Log`,
`HipChat.Query` and `HipChat.Stream` model the code as written.

=== FILE: hipchat.dfy ===
/**
 The HipChat transport: the constructor's checks and defaults, the request
 that `_request` builds (metadata, query string, fixed URL), `log`, `query`
 and `stream`. Everything is sent in the query string. As written,
 `_request` throws for missing metadata; once it has built a request, `log`
 and `query` reply as those of `Transport` do, with `LogPrefix` as the error
 prefix of `log`. The guarded request, which never throws, is the corrected
 version.
 */
module HipChat {
  import opened JsValue
  import opened Lodash
  import opened LogStream
  import opened Transport
  import Slack

  const NoRoom := "Must have a room option set."
  const NoToken := "Must have a token option set."

  const HipChatDefaults: map<string, Value> := map[
    "from" := Str("winston"),
    "notify" := Num(0),
    "color" := Str("yellow"),
    "messageFormat" := Str("text")
  ]

  const MessageUrl := "https://api.hipchat.com/v1/rooms/message"

  const LogPrefix := "winston: hipchat: "

  /** `new Hipchat(options)`: a room and a token must be given, and the room
      is checked first. */
  function Construct(o: map<string, Value>): (r: Result<map<string, Value>>)
    ensures r.Ok? <==> Truthy(Get(o, "room")) && Truthy(Get(o, "token"))
    ensures r.Thrown? ==> r.message == (if !Truthy(Get(o, "room")) then NoRoom else NoToken)
    ensures r.Ok? ==> forall k :: k in o && !o[k].Undefined? ==> Get(r.value, k) == o[k]
    ensures r.Ok? ==> forall k :: k in HipChatDefaults && Get(o, k).Undefined? ==> Get(r.value, k) == HipChatDefaults[k]
    ensures r.Ok? ==> r.value == Defaults(o, HipChatDefaults)
  {
    if !Truthy(Get(o, "room")) then Thrown(NoRoom)
    else if !Truthy(Get(o, "token")) then Thrown(NoToken)
    else Ok(Defaults(o, HipChatDefaults))
  }

  /** Constructing from the options of a constructed transport gives the same
      options again. */
  lemma ConstructIdempotent(o: map<string, Value>)
    requires Construct(o).Ok?
    ensures Construct(Construct(o).value) == Construct(o)
  {
    var c := Construct(o).value;
    DefaultsIdempotent(o, HipChatDefaults);
    assert Get(c, "room") == Get(o, "room") && Get(c, "token") == Get(o, "token");
  }

  /** The request parameters after `_request` has normalised the metadata:
      its JSON text when it has at least one key, empty text when it has none.
      `Object.keys` throws for `undefined` and `null` metadata. An `Error`
      counts its enumerable own properties only, so one without any becomes
      empty text. */
  function NormalizeMeta(params: map<string, Value>, json: Json): (r: Result<map<string, Value>>)
    ensures r.Thrown? <==> Get(params, "meta").Undefined? || Get(params, "meta").Null?
    ensures r.Thrown? ==> r.message == KeysOfNothing
    ensures r.Ok? ==> r.value.Keys == params.Keys + {"meta"}
    ensures r.Ok? ==> forall k :: k in params && k != "meta" ==> r.value[k] == params[k]
    ensures r.Ok? ==> r.value["meta"] == Str(if KeyCount(Get(params, "meta")).value > 0
                                              then json.stringify(Get(params, "meta")) else "")
  {
    match KeyCount(Get(params, "meta"))
    case None => Thrown(KeysOfNothing)
    case Some(n) => Ok(params["meta" := Str(if n > 0 then json.stringify(Get(params, "meta")) else "")])
  }

  /** The normalisation with a guard for missing metadata, as the Slack
      transport has: `undefined` and `null` metadata become empty text. */
  function NormalizeMetaGuarded(params: map<string, Value>, json: Json): (r: map<string, Value>)
    ensures r.Keys == params.Keys + {"meta"}
    ensures forall k :: k in params && k != "meta" ==> r[k] == params[k]
    ensures KeyCount(Get(params, "meta")).Some? && KeyCount(Get(params, "meta")).value > 0 ==>
              r["meta"] == Str(json.stringify(Get(params, "meta")))
    ensures KeyCount(Get(params, "meta")).None? || KeyCount(Get(params, "meta")).value == 0 ==> r["meta"] == Str("")
  {
    var meta := Get(params, "meta");
    params["meta" := Str(if KeyCount(meta).Some? && KeyCount(meta).value > 0 then json.stringify(meta) else "")]
  }

  /** The guarded normalisation is the Slack transport's for all metadata but
      an `Error`, which Slack turns into its message and stack. */
  lemma GuardedNormalizeIsSlacks(params: map<string, Value>, json: Json)
    requires !Get(params, "meta").ErrorObj?
    ensures NormalizeMetaGuarded(params, json) == Slack.NormalizeMeta(params, json)
  {
  }

  /** The guarded normalisation agrees with the normalisation as written
      wherever that one does not throw, and gives empty metadata where it does. */
  lemma GuardedNormalizeAgrees(params: map<string, Value>, json: Json)
    ensures NormalizeMeta(params, json).Ok? ==> NormalizeMetaGuarded(params, json) == NormalizeMeta(params, json).value
    ensures NormalizeMeta(params, json).Thrown? ==> NormalizeMetaGuarded(params, json) == params["meta" := Str("")]
  {
  }

  /** The query string `_request` builds. */
  datatype QueryString = QueryString(
    roomId: Value,
    from: Value,
    authToken: Value,
    notify: int,
    color: Value,
    messageFormat: Value,
    message: string)

  /** What `_request` hands to `request`. The method is always POST. */
  datatype Request = Request(
    url: string,
    qs: QueryString,
    params: map<string, Value>,
    path: Option<Value>,
    auth: Option<Value>)

  /** The request `_request` assembles once the metadata has been normalised
      into `params`. */
  function Assemble(o: map<string, Value>, call: Call, params: map<string, Value>): Request
  {
    var qs := QueryString(
      Get(o, "room"),
      Get(o, "from"),
      Get(o, "token"),
      if Truthy(Get(o, "notify")) then 1 else 0,
      Get(o, "color"),
      Get(o, "messageFormat"),
      Text(Get(o, "message"), params));
    Request(MessageUrl, qs, params, call.path, call.auth)
  }

  /** `_request(options, callback)` for the given call, with the metadata
      normalised by the guarded normalisation, so that it never throws. */
  function BuildRequestGuarded(o: map<string, Value>, call: Call, json: Json): (r: Request)
    ensures r.url == MessageUrl
    ensures r.params == NormalizeMetaGuarded(call.params, json)
    ensures r.qs.notify in {0, 1} && (r.qs.notify == 1 <==> Truthy(Get(o, "notify")))
    ensures && r.qs.roomId == Get(o, "room")
            && r.qs.from == Get(o, "from")
            && r.qs.authToken == Get(o, "token")
            && r.qs.color == Get(o, "color")
            && r.qs.messageFormat == Get(o, "messageFormat")
    ensures r.qs.message == Text(Get(o, "message"), r.params)
    ensures r.path == call.path && r.auth == call.auth
  {
    Assemble(o, call, NormalizeMetaGuarded(call.params, json))
  }

  /** `_request(options, callback)` for the given call, as written: it throws
      when the call carries `undefined` or `null` metadata, and otherwise
      builds the request the guarded version builds. */
  function BuildRequest(o: map<string, Value>, call: Call, json: Json): (r: Result<Request>)
    ensures r.Thrown? <==> Get(call.params, "meta").Undefined? || Get(call.params, "meta").Null?
    ensures r.Thrown? ==> r.message == KeysOfNothing
    ensures r.Ok? ==> r.value.params == NormalizeMeta(call.params, json).value
    ensures r.Ok? ==> r.value == BuildRequestGuarded(o, call, json)
  {
    match NormalizeMeta(call.params, json)
    case Thrown(m) => Thrown(m)
    case Ok(params) =>
      GuardedNormalizeAgrees(call.params, json);
      Ok(Assemble(o, call, params))
  }

  /** Without a template, a message is sent with its metadata's JSON text after
      a blank line, or alone when the metadata has no keys (or its JSON text
      is empty, which `JSON.stringify` never makes of an object with keys);
      missing metadata makes `_request` throw. */
  lemma PlainMessageText(o: map<string, Value>, call: Call, json: Json)
    requires !Truthy(Get(o, "message"))
    ensures var meta := Get(call.params, "meta");
      BuildRequest(o, call, json).Ok? <==> KeyCount(meta).Some?
    ensures var meta := Get(call.params, "meta");
      var m := ToString(Get(call.params, "message"));
      BuildRequest(o, call, json).Ok? ==>
        BuildRequest(o, call, json).value.qs.message
        == if KeyCount(meta).value > 0 && json.stringify(meta) != "" then m + "\n\n" + json.stringify(meta) else m
  {
    PlainMessageTextGuarded(o, call, json);
  }

  /** With the guard, the same, except that a message with missing metadata is
      sent alone. */
  lemma PlainMessageTextGuarded(o: map<string, Value>, call: Call, json: Json)
    requires !Truthy(Get(o, "message"))
    ensures var meta := Get(call.params, "meta");
      var m := ToString(Get(call.params, "message"));
      BuildRequestGuarded(o, call, json).qs.message
      == if KeyCount(meta).Some? && KeyCount(meta).value > 0 && json.stringify(meta) != ""
         then m + "\n\n" + json.stringify(meta) else m
  {
    var r := BuildRequestGuarded(o, call, json);
    assert Get(r.params, "message") == Get(call.params, "message");
  }

  /** `log` given `undefined` or `null` as the metadata. */
  predicate MissingMeta(meta: MetaArg)
  {
    meta.MetaValue? && (meta.value.Undefined? || meta.value.Null?)
  }

  /** `log(level, msg, meta, callback)`: that of `Transport`, except that when
      the transport is not silent and the metadata is missing, `_request`
      throws before anything is sent and no callback is called. */
  function Log(o: map<string, Value>, silent: bool, level: Value, msg: Value, meta: MetaArg, callback: CallbackArg,
               response: Response, json: Json): (r: Outcome<Request>)
    ensures silent ==> r.request.None? && r.reply == (if callback.CallbackFn? then Answered(Bool(true)) else Crashed(NotAFunction))
    ensures !silent && MissingMeta(meta) ==> r == Outcome(None, Crashed(KeysOfNothing))
    ensures !silent && !MissingMeta(meta) ==>
              && r.request == Some(BuildRequestGuarded(o, Call(LogParams(level, msg, meta), None, None), json))
              && r.reply == Transport.Log(LogPrefix, false, level, msg, meta, callback, response).reply
  {
    var sent := Transport.Log(LogPrefix, silent, level, msg, meta, callback, response);
    if silent then Outcome(None, sent.reply)
    else
      match BuildRequest(o, sent.request.value, json)
      case Thrown(m) => Outcome(None, Crashed(m))
      case Ok(request) => Outcome(Some(request), sent.reply)
  }

  /** `query(options, callback)`: that of `Transport`, except that `_request`
      throws, and nothing is sent, when `query` carries no usable `meta`. */
  function Query(o: map<string, Value>, query: map<string, Value>, response: Response, json: Json): (r: Outcome<Request>)
    ensures KeyCount(Get(query, "meta")).None? ==> r == Outcome(None, Crashed(KeysOfNothing))
    ensures KeyCount(Get(query, "meta")).Some? ==>
              && r.request == Some(BuildRequestGuarded(o, Call(query, None, None), json))
              && r.reply == Transport.Query(query, response, json.parse).reply
  {
    var sent := Transport.Query(query, response, json.parse);
    match BuildRequest(o, sent.request.value, json)
    case Thrown(m) => Outcome(None, Crashed(m))
    case Ok(request) => Outcome(Some(request), sent.reply)
  }

  /** With the guard, a message logged with missing metadata is sent on its
      own when no template is configured, where `log` as written throws. */
  lemma LogWithoutMetaSendsMessage(o: map<string, Value>, level: Value, msg: Value, meta: Value,
                                   callback: CallbackArg, response: Response, json: Json)
    requires !Truthy(Get(o, "message")) && (meta.Undefined? || meta.Null?)
    ensures Log(o, false, level, msg, MetaValue(meta), callback, response, json) == Outcome(None, Crashed(KeysOfNothing))
    ensures BuildRequestGuarded(o, Call(LogParams(level, msg, MetaValue(meta)), None, None), json).qs.message
         == ToString(msg)
  {
    var p := LogParams(level, msg, MetaValue(meta));
    PlainMessageTextGuarded(o, Call(p, None, None), json);
  }

  /** `stream(options)` after the response has delivered `chunks`: as written,
      it throws when the options carry no usable `meta`. */
  function Stream(o: map<string, Value>, options: Option<map<string, Value>>, chunks: seq<string>, json: Json)
    : (r: Result<Streaming<Request>>)
    ensures r.Thrown? <==> KeyCount(Get(Hoist(options).params, "meta")).None?
    ensures r.Thrown? ==> r.message == KeysOfNothing
    ensures r.Ok? ==> r.value.request == BuildRequestGuarded(o, Hoist(options), json)
    ensures r.Ok? ==> var given := if options.Some? then options.value else map[];
      && r.value.request.path == (if Truthy(Get(given, "path")) then Some(given["path"]) else None)
      && r.value.request.auth == (if Truthy(Get(given, "auth")) then Some(given["auth"]) else None)
      && r.value.request.params == NormalizeMetaGuarded(Hoist(options).params, json)
    ensures r.Ok? ==> r.value.session.events == Events(Run("", chunks).emitted, json.parse)
    ensures r.Ok? ==> r.value.session.buffer == Run("", chunks).buffer
  {
    match BuildRequest(o, Hoist(options), json)
    case Thrown(m) => Thrown(m)
    case Ok(request) => Ok(Streaming(request, Consume(chunks, json.parse)))
  }

  /** As written, `stream` throws when opened without options, or with options
      that carry no `meta`. The parameters of a query, which winston's
      `normalizeQuery` builds without a `meta`, fare the same in `_request`. */
  lemma StreamWithoutMetaThrows(o: map<string, Value>, options: Option<map<string, Value>>, chunks: seq<string>,
                                json: Json)
    requires options.Some? ==> "meta" !in options.value
    ensures Stream(o, options, chunks, json) == Thrown(KeysOfNothing)
  {
    var c := Hoist(options);
    assert "meta" !in c.params;
  }
}

=== FILE: js_value.dfy ===
/**
 JavaScript values as the two chat transports see them, together with the
 handful of language rules the transports lean on: truthiness, the key count
 of `Object.keys`, and the string conversion that `+` applies.
 */
module JsValue {

  datatype Option<T> = None | Some(value: T)

  /** The outcome of a step that may throw a JavaScript exception. */
  datatype Result<T> = Ok(value: T) | Thrown(message: string)

  /** A JavaScript value. Numbers are integers here; arrays and functions used
      as data are not represented. An object's properties are a map, so the
      order in which they were added is not kept. `ErrorObj` is an instance
      of `Error` (or of a subclass): its `name`, `message` and `stack`, which
      are not enumerable, and its enumerable own properties, such as the
      `code`, `errno` and `syscall` of Node's system errors. */
  datatype Value =
    | Undefined
    | Null
    | Bool(b: bool)
    | Num(n: int)
    | Str(s: string)
    | Obj(props: map<string, Value>)
    | ErrorObj(name: string, message: string, stack: string, props: map<string, Value>)

  /** JSON text, supplied from outside: `stringify` is `JSON.stringify(v,
      null, 2)` (indented by two spaces), `serialize` is `JSON.stringify(v)`
      (no whitespace), and `parse` is `JSON.parse`, answering `None` where it
      throws. */
  datatype Json = Json(stringify: Value -> string, serialize: Value -> string, parse: string -> Option<Value>)

  /** The values `!!v` maps to false. */
  const Falsy: set<Value> := {Undefined, Null, Bool(false), Num(0), Str("")}

  /** The value `!!v` in JavaScript: false exactly for `undefined`, `null`,
      `false`, `0` and the empty string; every object is truthy. */
  predicate Truthy(v: Value)
    ensures Truthy(v) <==> v !in Falsy
    ensures v.Obj? || v.ErrorObj? ==> Truthy(v)
  {
    match v
    case Undefined => false
    case Null => false
    case Bool(b) => b
    case Num(n) => n != 0
    case Str(s) => s != ""
    case Obj(_) => true
    case ErrorObj(_, _, _, _) => true
  }

  /** Property lookup `o[k]` on a plain object. */
  function Get(o: map<string, Value>, k: string): Value
  {
    if k in o then o[k] else Undefined
  }

  /** `Object.keys(v).length` as ES2015 defines it, or `None` where
      `Object.keys` throws a TypeError. A string has one key per character; an
      Error counts only its enumerable own properties; a boolean or a number
      has none. */
  function KeyCount(v: Value): (r: Option<nat>)
    ensures r.None? <==> v.Undefined? || v.Null?
    ensures r.Some? && r.value > 0 ==> Truthy(v)
    ensures v.Obj? ==> r == Some(|v.props|)
    ensures v.ErrorObj? ==> r == Some(|v.props|)
    ensures v.Str? ==> r == Some(|v.s|)
    ensures v.Bool? || v.Num? ==> r == Some(0)
  {
    match v
    case Undefined => None
    case Null => None
    case Str(s) => Some(|s|)
    case Obj(m) => Some(|m|)
    case ErrorObj(_, _, _, m) => Some(|m|)
    case _ => Some(0)
  }

  /** The message of the TypeError that `Object.keys(undefined)` throws. */
  const KeysOfNothing := "Cannot convert undefined or null to object"

  /** The message of the TypeError thrown when `undefined` is called. */
  const NotAFunction := "callback is not a function"

  function DigitChar(d: nat): (c: char)
    requires d < 10
    ensures '0' <= c <= '9'
    ensures (c as int) - ('0' as int) == d
  {
    (('0' as int) + d) as char
  }

  predicate AllDigits(s: string)
  {
    forall i :: 0 <= i < |s| ==> '0' <= s[i] <= '9'
  }

  /** Decimal digits of a natural number, most significant first. */
  function NatString(n: nat): (s: string)
    ensures |s| >= 1 && AllDigits(s)
    ensures s[0] == '0' ==> n == 0
    decreases n
  {
    if n < 10 then [DigitChar(n)] else NatString(n / 10) + [DigitChar(n % 10)]
  }

  /** The number a string of decimal digits denotes. */
  function DigitsValue(s: string): nat
    requires AllDigits(s)
    decreases |s|
  {
    if |s| == 0 then 0
    else DigitsValue(s[..|s| - 1]) * 10 + ((s[|s| - 1] as int) - ('0' as int))
  }

  /** Reading back the digits `NatString` writes gives the number again. */
  lemma {:induction false} NatStringRoundTrip(n: nat)
    ensures DigitsValue(NatString(n)) == n
    decreases n
  {
    if n >= 10 {
      NatStringRoundTrip(n / 10);
      var s := NatString(n);
      assert s[..|s| - 1] == NatString(n / 10);
    }
  }

  /** The decimal form JavaScript gives an integer-valued number. */
  function DecimalString(n: int): (s: string)
    ensures |s| >= 1
    ensures n >= 0 ==> AllDigits(s) && DigitsValue(s) == n
    ensures n < 0 ==> s[0] == '-' && AllDigits(s[1..]) && DigitsValue(s[1..]) == -n
  {
    if n < 0 then
      NatStringRoundTrip(-n);
      var s := "-" + NatString(-n);
      assert s[1..] == NatString(-n);
      s
    else
      NatStringRoundTrip(n);
      NatString(n)
  }

  /** `String(v)`, the conversion `+` applies to a value joined to a string.
      For an Error this is `Error.prototype.toString`: the name and the
      message joined by `": "`, or whichever of the two is not empty. */
  function ToString(v: Value): (s: string)
    ensures v.Str? ==> s == v.s
    ensures v.Undefined? ==> s == "undefined"
    ensures v.Null? ==> s == "null"
    ensures v.Num? ==> s == DecimalString(v.n)
    ensures v.ErrorObj? && v.name != "" && v.message != "" ==> s == v.name + ": " + v.message
    ensures v.ErrorObj? && (v.name == "" || v.message == "") ==> s == v.name + v.message
  {
    match v
    case Undefined => "undefined"
    case Null => "null"
    case Bool(b) => if b then "true" else "false"
    case Num(n) => DecimalString(n)
    case Str(s) => s
    case Obj(_) => "[object Object]"
    case ErrorObj(n, m, _, _) => if n == "" then m else if m == "" then n else n + ": " + m
  }
}

=== FILE: line_split.dfy ===
/**
 JavaScript's `s.split(/\n+/)`: the text between maximal runs of newlines,
 in order. The result always has at least one piece; a leading run gives an
 empty first piece and a trailing run an empty last piece.
 */
module LineSplit {

  /** Index of the first newline. */
  function FirstNewline(s: string): (i: nat)
    requires '\n' in s
    ensures i < |s| && s[i] == '\n' && '\n' !in s[..i]
  {
    if s[0] == '\n' then 0
    else
      assert '\n' in s[1..] by {
        var k :| 0 <= k < |s| && s[k] == '\n';
        assert s[1..][k - 1] == '\n';
      }
      var j := FirstNewline(s[1..]);
      assert s[..j + 1] == [s[0]] + s[1..][..j];
      j + 1
  }

  /** End (exclusive) of the run of newlines that starts at `i`. */
  function RunEnd(s: string, i: nat): (j: nat)
    requires i < |s| && s[i] == '\n'
    ensures i < j <= |s|
    ensures forall k :: i <= k < j ==> s[k] == '\n'
    ensures j == |s| || s[j] != '\n'
    decreases |s| - i
  {
    if i + 1 < |s| && s[i + 1] == '\n' then RunEnd(s, i + 1) else i + 1
  }

  function Split(s: string): (ps: seq<string>)
    ensures |ps| >= 1
    ensures forall k :: 0 <= k < |ps| ==> '\n' !in ps[k]
    decreases |s|
  {
    if '\n' !in s then [s]
    else
      var i := FirstNewline(s);
      [s[..i]] + Split(s[RunEnd(s, i)..])
  }

  /** The pieces written one after the other. */
  function Flatten(ps: seq<string>): string
  {
    if |ps| == 0 then "" else ps[0] + Flatten(ps[1..])
  }

  /** The text with every newline removed. */
  function Strip(s: string): string
  {
    if |s| == 0 then "" else (if s[0] == '\n' then "" else [s[0]]) + Strip(s[1..])
  }

  /** The pieces written with one newline between neighbours. */
  function Join(ps: seq<string>): string
    requires |ps| >= 1
  {
    if |ps| == 1 then ps[0] else ps[0] + "\n" + Join(ps[1..])
  }

  /** The text with every run of newlines shortened to a single newline;
      `afterNewline` says whether the text before it ended in a newline. */
  function CollapseAfter(s: string, afterNewline: bool): string
  {
    if |s| == 0 then ""
    else if s[0] == '\n' then (if afterNewline then "" else "\n") + CollapseAfter(s[1..], true)
    else [s[0]] + CollapseAfter(s[1..], false)
  }

  function Collapse(s: string): string
  {
    CollapseAfter(s, false)
  }

  lemma {:induction false} FlattenAppend(xs: seq<string>, ys: seq<string>)
    ensures Flatten(xs + ys) == Flatten(xs) + Flatten(ys)
    decreases |xs|
  {
    if |xs| == 0 {
      assert xs + ys == ys;
    } else {
      assert (xs + ys)[1..] == xs[1..] + ys;
      FlattenAppend(xs[1..], ys);
    }
  }

  lemma {:induction false} StripAppend(a: string, b: string)
    ensures Strip(a + b) == Strip(a) + Strip(b)
    decreases |a|
  {
    if |a| == 0 {
      assert a + b == b;
    } else {
      assert (a + b)[1..] == a[1..] + b;
      StripAppend(a[1..], b);
    }
  }

  lemma {:induction false} StripKeepsNewlineFree(a: string)
    requires '\n' !in a
    ensures Strip(a) == a
    decreases |a|
  {
    if |a| > 0 {
      StripKeepsNewlineFree(a[1..]);
      assert a == [a[0]] + a[1..];
    }
  }

  lemma {:induction false} StripRemovesRun(s: string, i: nat, j: nat)
    requires i <= j <= |s|
    requires forall k :: i <= k < j ==> s[k] == '\n'
    ensures Strip(s[i..j]) == ""
    decreases j - i
  {
    if i < j {
      assert s[i..j][1..] == s[i + 1..j];
      StripRemovesRun(s, i + 1, j);
    }
  }

  /** Splitting drops the newlines and nothing else. */
  lemma {:induction false} SplitKeepsText(s: string)
    ensures Flatten(Split(s)) == Strip(s)
    decreases |s|
  {
    if '\n' !in s {
      StripKeepsNewlineFree(s);
    } else {
      var i := FirstNewline(s);
      var j := RunEnd(s, i);
      var a, run, b := s[..i], s[i..j], s[j..];
      assert s == a + run + b;
      var ps := Split(s);
      assert ps == [a] + Split(b);
      calc {
        Flatten(ps);
        a + Flatten(Split(b));
        { SplitKeepsText(b); }
        a + Strip(b);
        { StripKeepsNewlineFree(a); StripRemovesRun(s, i, j); }
        Strip(a) + Strip(run) + Strip(b);
        { StripAppend(a, run); StripAppend(a + run, b); }
        Strip(s);
      }
    }
  }

  lemma {:induction false} CollapseNewlineFree(a: string, b: string, afterNewline: bool)
    requires '\n' !in a && |a| > 0
    ensures CollapseAfter(a + b, afterNewline) == a + CollapseAfter(b, false)
    decreases |a|
  {
    var t := a + b;
    assert t[0] == a[0] && t[1..] == a[1..] + b;
    assert CollapseAfter(t, afterNewline) == [a[0]] + CollapseAfter(a[1..] + b, false);
    if |a| == 1 {
      assert a[1..] + b == b && a == [a[0]];
    } else {
      assert '\n' !in a[1..];
      CollapseNewlineFree(a[1..], b, false);
      assert a == [a[0]] + a[1..];
      assert [a[0]] + (a[1..] + CollapseAfter(b, false)) == a + CollapseAfter(b, false);
    }
  }

  lemma {:induction false} CollapseRun(s: string, i: nat, j: nat, afterNewline: bool)
    requires i < j <= |s|
    requires forall k :: i <= k < j ==> s[k] == '\n'
    ensures CollapseAfter(s[i..], afterNewline)
         == (if afterNewline then "" else "\n") + CollapseAfter(s[j..], true)
    decreases j - i
  {
    assert s[i..][0] == '\n' && s[i..][1..] == s[i + 1..];
    if i + 1 < j {
      CollapseRun(s, i + 1, j, true);
    }
  }

  /** The step of `SplitJoinCollapses` past one piece and the run after it. */
  lemma CollapseAfterPiece(s: string, a: string, b: string, i: nat, j: nat)
    requires i < j <= |s| && a == s[..i] && b == s[j..] && '\n' !in a
    requires forall k :: i <= k < j ==> s[k] == '\n'
    requires j == |s| || s[j] != '\n'
    ensures Collapse(s) == a + "\n" + Collapse(b)
  {
    assert CollapseAfter(b, true) == CollapseAfter(b, false);
    CollapseRun(s, i, j, false);
    if i > 0 {
      assert s == a + s[i..];
      CollapseNewlineFree(a, s[i..], false);
    } else {
      assert s[i..] == s && a == "";
    }
  }

  /** Joining the pieces with single newlines gives the text with each run
      of newlines shortened to one. */
  lemma {:induction false} SplitJoinCollapses(s: string)
    ensures Join(Split(s)) == Collapse(s)
    decreases |s|
  {
    if '\n' !in s {
      if |s| > 0 {
        CollapseNewlineFree(s, "", false);
        assert s + "" == s;
      }
    } else {
      var i := FirstNewline(s);
      var j := RunEnd(s, i);
      var a, b := s[..i], s[j..];
      var ps := Split(s);
      assert ps == [a] + Split(b);
      assert ps[1..] == Split(b);
      assert Join(ps) == a + "\n" + Join(Split(b));
      SplitJoinCollapses(b);
      CollapseAfterPiece(s, a, b, i, j);
    }
  }

  /** Splitting text that has the shape piece, run of newlines, rest. */
  lemma SplitAround(a: string, run: string, b: string)
    requires '\n' !in a
    requires |run| > 0 && forall k :: 0 <= k < |run| ==> run[k] == '\n'
    requires |b| == 0 || b[0] != '\n'
    ensures Split(a + run + b) == [a] + Split(b)
  {
    var s := a + run + b;
    assert s[|a|] == '\n';
    assert '\n' in s;
    assert forall k :: 0 <= k < |a| ==> s[k] == a[k];
    var i := FirstNewline(s);
    assert i <= |a| by {
      assert forall k :: 0 <= k < i ==> s[..i][k] == s[k];
    }
    assert i == |a|;
    assert forall k :: |a| <= k < |a| + |run| ==> s[k] == run[k - |a|];
    assert |b| > 0 ==> s[|a| + |run|] == b[0];
    var j := RunEnd(s, i);
    assert j == |a| + |run|;
    assert s[..i] == a && s[j..] == b;
    assert Split(s) == [s[..i]] + Split(s[j..]);
  }

  lemma SplitNewlineFree(a: string)
    requires '\n' !in a
    ensures Split(a) == [a]
  {
  }
}

=== FILE: lodash.dfy ===
/**
 lodash's `_.defaults(object, source)` for one source: every key of `source`
 whose value in `object` is `undefined` (missing or explicitly `undefined`)
 takes the source's value; everything else in `object` is left alone.
 */
module Lodash {
  import opened JsValue

  function Defaults(o: map<string, Value>, d: map<string, Value>): (r: map<string, Value>)
    ensures r.Keys == o.Keys + d.Keys
    ensures forall k :: k in o && !o[k].Undefined? ==> r[k] == o[k]
    ensures forall k :: k in d && Get(o, k).Undefined? ==> r[k] == d[k]
    ensures forall k :: k in o && k !in d ==> r[k] == o[k]
  {
    map k | k in o.Keys + d.Keys :: if k in d && Get(o, k).Undefined? then d[k] else o[k]
  }

  /** Filling in defaults a second time changes nothing. */
  lemma DefaultsIdempotent(o: map<string, Value>, d: map<string, Value>)
    ensures Defaults(Defaults(o, d), d) == Defaults(o, d)
  {
    var once := Defaults(o, d);
    var twice := Defaults(once, d);
    forall k | k in twice.Keys
      ensures twice[k] == once[k]
    {
      if k in d && Get(once, k).Undefined? {
        assert once[k] == d[k] by {
          if k in o && !o[k].Undefined? {
            assert once[k] == o[k];
          }
        }
      }
    }
  }

  /** An object that already sets every defaulted key is returned as it is. */
  lemma DefaultsOfComplete(o: map<string, Value>, d: map<string, Value>)
    requires forall k :: k in d ==> k in o && !o[k].Undefined?
    ensures Defaults(o, d) == o
  {
    assert Defaults(o, d).Keys == o.Keys;
  }
}

=== FILE: log_stream.dfy ===
/**
 The `data` handler both transports install on a streamed response: the
 buffered tail is joined to the new chunk, the result is split on runs of
 newlines, every piece but the last is parsed and emitted as a `log` event
 (an `error` event when it does not parse), and the last piece becomes the
 new buffer. The buffer starts empty.
 */
module LogStream {
  import opened JsValue
  import opened LineSplit

  /** Pieces emitted so far and the text held back for the next chunk. */
  datatype Feed = Feed(emitted: seq<string>, buffer: string)

  /** What a stream handle emits for one complete piece. */
  datatype Event = LogEvent(value: Value) | ErrorEvent(piece: string)

  lemma FlattenInitLast(ps: seq<string>)
    requires |ps| >= 1
    ensures Flatten(ps[..|ps| - 1]) + ps[|ps| - 1] == Flatten(ps)
  {
    var n := |ps| - 1;
    assert ps == ps[..n] + [ps[n]];
    FlattenAppend(ps[..n], [ps[n]]);
    assert Flatten([ps[n]]) == ps[n] + Flatten([]);
  }

  /** One chunk handled. */
  function Step(buffer: string, chunk: string): (r: Feed)
    ensures '\n' !in r.buffer
    ensures forall i :: 0 <= i < |r.emitted| ==> '\n' !in r.emitted[i]
  {
    var parts := Split(buffer + chunk);
    Feed(parts[..|parts| - 1], parts[|parts| - 1])
  }

  /** Chunks handled in order, starting from `buffer`. */
  function Run(buffer: string, chunks: seq<string>): (r: Feed)
    requires '\n' !in buffer
    ensures '\n' !in r.buffer
    ensures forall i :: 0 <= i < |r.emitted| ==> '\n' !in r.emitted[i]
    decreases |chunks|
  {
    if |chunks| == 0 then Feed([], buffer)
    else
      var s := Step(buffer, chunks[0]);
      var rest := Run(s.buffer, chunks[1..]);
      Feed(s.emitted + rest.emitted, rest.buffer)
  }

  /** A step drops the newlines of the buffer and chunk and nothing else. */
  lemma StepKeepsText(buffer: string, chunk: string)
    ensures Flatten(Step(buffer, chunk).emitted) + Step(buffer, chunk).buffer == Strip(buffer + chunk)
  {
    SplitKeepsText(buffer + chunk);
    FlattenInitLast(Split(buffer + chunk));
  }

  /** What is emitted, followed by what is held back, is everything received
      with its newlines removed. */
  lemma {:induction false} RunKeepsText(buffer: string, chunks: seq<string>)
    requires '\n' !in buffer
    ensures Flatten(Run(buffer, chunks).emitted) + Run(buffer, chunks).buffer
         == Strip(buffer + Flatten(chunks))
    decreases |chunks|
  {
    if |chunks| == 0 {
      StripKeepsNewlineFree(buffer);
      assert buffer + "" == buffer;
    } else {
      var s := Step(buffer, chunks[0]);
      StepKeepsText(buffer, chunks[0]);
      RunKeepsText(s.buffer, chunks[1..]);
      assert buffer + Flatten(chunks) == buffer + chunks[0] + Flatten(chunks[1..]);
      ConservedAcrossSteps(buffer + chunks[0], Flatten(chunks[1..]), s, Run(s.buffer, chunks[1..]));
    }
  }

  lemma Regroup(x: string, fs: string, fr: string, rb: string, sb: string, st: string, z: string)
    requires x == fs + fr && fr + rb == sb + st && z == fs + sb + st
    ensures x + rb == z
  {
    assert x + rb == fs + (fr + rb);
  }

  /** If a step keeps the text of `head` and the steps after it keep the text
      of `tail`, the two together keep the text of both. */
  lemma ConservedAcrossSteps(head: string, tail: string, s: Feed, rest: Feed)
    requires '\n' !in s.buffer
    requires Flatten(s.emitted) + s.buffer == Strip(head)
    requires Flatten(rest.emitted) + rest.buffer == Strip(s.buffer + tail)
    ensures Flatten(s.emitted + rest.emitted) + rest.buffer == Strip(head + tail)
  {
    FlattenAppend(s.emitted, rest.emitted);
    StripAppend(s.buffer, tail);
    StripKeepsNewlineFree(s.buffer);
    StripAppend(head, tail);
    Regroup(Flatten(s.emitted + rest.emitted), Flatten(s.emitted), Flatten(rest.emitted), rest.buffer,
            s.buffer, Strip(tail), Strip(head + tail));
  }

  /** The event a piece gives rise to. */
  function EventFor(piece: string, parse: string -> Option<Value>): Event
  {
    match parse(piece)
    case Some(v) => LogEvent(v)
    case None => ErrorEvent(piece)
  }

  /** The events of the given pieces: one per piece, in the same order. A piece
      that does not parse yields an error event and the next piece is still
      handled. */
  function Events(pieces: seq<string>, parse: string -> Option<Value>): (es: seq<Event>)
    ensures |es| == |pieces|
    ensures forall i :: 0 <= i < |pieces| ==> (es[i].LogEvent? <==> parse(pieces[i]).Some?)
    ensures forall i :: 0 <= i < |pieces| && es[i].LogEvent? ==> parse(pieces[i]) == Some(es[i].value)
    ensures forall i :: 0 <= i < |pieces| && es[i].ErrorEvent? ==> es[i].piece == pieces[i]
  {
    seq(|pieces|, i requires 0 <= i < |pieces| => EventFor(pieces[i], parse))
  }

  /** What a stream emits for the chunks received so far, and what it holds back. */
  datatype Session = Session(events: seq<Event>, buffer: string)

  /** The stream handler as written, over the chunks received so far: one
      event per piece the handler emits, in order, a log event exactly for
      the pieces that parse; the text after the last newline is held back,
      and no text other than newlines is lost. */
  function Consume(chunks: seq<string>, parse: string -> Option<Value>): (r: Session)
    ensures '\n' !in r.buffer
    ensures |r.events| == |Run("", chunks).emitted|
    ensures forall i :: 0 <= i < |r.events| ==>
              (r.events[i].LogEvent? <==> parse(Run("", chunks).emitted[i]).Some?)
    ensures forall i :: 0 <= i < |r.events| && r.events[i].LogEvent? ==>
              parse(Run("", chunks).emitted[i]) == Some(r.events[i].value)
    ensures forall i :: 0 <= i < |r.events| && r.events[i].ErrorEvent? ==>
              r.events[i].piece == Run("", chunks).emitted[i]
    ensures Strip(Flatten(chunks)) == Flatten(Run("", chunks).emitted) + r.buffer
  {
    var f := Run("", chunks);
    RunKeepsText("", chunks);
    assert "" + Flatten(chunks) == Flatten(chunks);
    Session(Events(f.emitted, parse), f.buffer)
  }

  /** The session with the blank pieces the handler as written emits at chunk
      boundaries skipped (see `BlankLineAtBoundary`): the events are those of
      the pieces the handler as written emits, less the empty ones, no error
      event is for an empty piece, and the same text is held back. */
  function ConsumeSkippingBlank(chunks: seq<string>, parse: string -> Option<Value>): (r: Session)
    ensures '\n' !in r.buffer
    ensures r.events == Events(NonEmpty(Run("", chunks).emitted), parse)
    ensures r.buffer == Consume(chunks, parse).buffer
    ensures forall i :: 0 <= i < |r.events| && r.events[i].ErrorEvent? ==> r.events[i].piece != ""
    ensures Strip(Flatten(chunks)) == Flatten(NonEmpty(Run("", chunks).emitted)) + r.buffer
  {
    var f := RunSkippingBlank("", chunks);
    SkippingBlankFiltersRun("", chunks);
    RunKeepsText("", chunks);
    FlattenNonEmpty(Run("", chunks).emitted);
    assert "" + Flatten(chunks) == Flatten(chunks);
    Session(Events(f.emitted, parse), f.buffer)
  }

  /** The session with blank pieces skipped depends only on the text
      received, not on how it was split into chunks. */
  lemma ConsumeSkippingBlankIgnoresChunking(xs: seq<string>, ys: seq<string>, parse: string -> Option<Value>)
    requires Flatten(xs) == Flatten(ys)
    ensures ConsumeSkippingBlank(xs, parse) == ConsumeSkippingBlank(ys, parse)
  {
    ChunkingIrrelevant(xs, ys);
  }

  /** Handling a first chunk and then the rest. */
  lemma RunCons(buffer: string, c: string, cs: seq<string>)
    requires '\n' !in buffer
    ensures Run(buffer, [c] + cs).emitted
         == Step(buffer, c).emitted + Run(Step(buffer, c).buffer, cs).emitted
    ensures Run(buffer, [c] + cs).buffer == Run(Step(buffer, c).buffer, cs).buffer
  {
    assert ([c] + cs)[0] == c && ([c] + cs)[1..] == cs;
  }

  /** Handling chunks in two batches is handling them in one: the pieces of
      later chunks always come after the pieces of earlier ones. */
  lemma {:induction false} RunAppend(buffer: string, xs: seq<string>, ys: seq<string>)
    requires '\n' !in buffer
    ensures Run(buffer, xs + ys).emitted
         == Run(buffer, xs).emitted + Run(Run(buffer, xs).buffer, ys).emitted
    ensures Run(buffer, xs + ys).buffer == Run(Run(buffer, xs).buffer, ys).buffer
    decreases |xs|
  {
    if |xs| == 0 {
      assert xs + ys == ys;
    } else {
      var c, cs := xs[0], xs[1..];
      var b := Step(buffer, c).buffer;
      assert xs == [c] + cs && xs + ys == [c] + (cs + ys);
      RunCons(buffer, c, cs);
      RunCons(buffer, c, cs + ys);
      RunAppend(b, cs, ys);
      SeqAssoc(Step(buffer, c).emitted, Run(b, cs).emitted, Run(Run(b, cs).buffer, ys).emitted);
    }
  }

  lemma SeqAssoc<T>(a: seq<T>, b: seq<T>, c: seq<T>)
    ensures a + (b + c) == (a + b) + c
  {
  }

  lemma RunTwo(buffer: string, c1: string, c2: string)
    requires '\n' !in buffer
    ensures Run(buffer, [c1, c2])
         == Feed(Step(buffer, c1).emitted + Step(Step(buffer, c1).buffer, c2).emitted,
                 Step(Step(buffer, c1).buffer, c2).buffer)
  {
    var cs := [c1, c2];
    assert cs[0] == c1 && cs[1..] == [c2];
    RunOne(Step(buffer, c1).buffer, c2);
  }

  lemma RunOne(buffer: string, c: string)
    requires '\n' !in buffer
    ensures Run(buffer, [c]) == Step(buffer, c)
  {
    var s1 := Step(buffer, c);
    assert [c][1..] == [];
    assert Run(s1.buffer, []) == Feed([], s1.buffer);
    assert s1.emitted + [] == s1.emitted;
  }

  lemma StepFromSplit(buffer: string, chunk: string, pieces: seq<string>, last: string)
    requires Split(buffer + chunk) == pieces + [last]
    ensures Step(buffer, chunk) == Feed(pieces, last)
  {
    var parts := pieces + [last];
    assert parts[..|parts| - 1] == pieces;
  }

  /** A chunk made of a line, a newline and a partial line. */
  lemma StepLineThenPartial(first: string, second: string)
    requires '\n' !in first && '\n' !in second
    ensures Step("", first + "\n" + second) == Feed([first], second)
  {
    assert "" + (first + "\n" + second) == first + "\n" + second;
    SplitAround(first, "\n", second);
    SplitNewlineFree(second);
    StepFromSplit("", first + "\n" + second, [first], second);
  }

  /** A chunk that completes the buffered partial line. */
  lemma StepCompletesLine(buffer: string, rest: string)
    requires '\n' !in buffer && '\n' !in rest
    ensures Step(buffer, rest + "\n") == Feed([buffer + rest], "")
  {
    assert buffer + (rest + "\n") == (buffer + rest) + "\n" + "";
    SplitAround(buffer + rest, "\n", "");
    SplitNewlineFree("");
    StepFromSplit(buffer, rest + "\n", [buffer + rest], "");
  }

  /** A line split across two chunks is held back and emitted whole once its
      newline arrives. */
  lemma LineAcrossChunks(first: string, second: string, rest: string)
    requires '\n' !in first && '\n' !in second && '\n' !in rest
    ensures Run("", [first + "\n" + second, rest + "\n"]) == Feed([first, second + rest], "")
  {
    RunTwo("", first + "\n" + second, rest + "\n");
    StepLineThenPartial(first, second);
    StepCompletesLine(second, rest);
  }

  /** The two-chunk example: an object split across two chunks is buffered
      and emitted whole once its newline arrives. */
  lemma SplitObjectExample()
    ensures Run("", ["{\"a\":1}\n{\"b\":2", "}\n"])
         == Feed(["{\"a\":1}", "{\"b\":2}"], "")
  {
    var first, second, rest := "{\"a\":1}", "{\"b\":2", "}";
    assert first + "\n" + second == "{\"a\":1}\n{\"b\":2";
    assert rest + "\n" == "}\n";
    assert second + rest == "{\"b\":2}";
    LineAcrossChunks(first, second, rest);
  }

  /** Two lines separated by a blank line, cut right after the first newline:
      the second chunk starts with a newline and so with an empty piece. */
  lemma BlankLineAtBoundary(p: string, q: string)
    requires '\n' !in p && '\n' !in q && |q| > 0
    ensures Run("", [p + "\n", "\n" + q + "\n"]).emitted == [p, "", q]
  {
    RunTwo("", p + "\n", "\n" + q + "\n");
    StepCompletesLine("", p);
    assert "" + p == p;
    StepLeadingNewline(q);
  }

  /** A chunk that starts with a newline while nothing is buffered. */
  lemma StepLeadingNewline(q: string)
    requires '\n' !in q && |q| > 0
    ensures Step("", "\n" + q + "\n") == Feed(["", q], "")
  {
    calc {
      Split("" + ("\n" + q + "\n"));
      { assert "" + ("\n" + q + "\n") == "" + "\n" + (q + "\n"); }
      Split("" + "\n" + (q + "\n"));
      { SplitAround("", "\n", q + "\n"); }
      [""] + Split(q + "\n");
      { assert q + "\n" == q + "\n" + ""; SplitAround(q, "\n", ""); }
      [""] + ([q] + Split(""));
      { SplitNewlineFree(""); }
      ["", q] + [""];
    }
    StepFromSplit("", "\n" + q + "\n", ["", q], "");
  }

  /** The same text in a single chunk: the blank line is absorbed. */
  lemma BlankLineInsideChunk(p: string, q: string)
    requires '\n' !in p && '\n' !in q && |q| > 0
    ensures Run("", [p + "\n\n" + q + "\n"]).emitted == [p, q]
  {
    var t := p + "\n\n" + q + "\n";
    calc {
      Split("" + t);
      { assert "" + t == p + "\n\n" + (q + "\n"); }
      Split(p + "\n\n" + (q + "\n"));
      { SplitAround(p, "\n\n", q + "\n"); }
      [p] + Split(q + "\n");
      { assert q + "\n" == q + "\n" + ""; SplitAround(q, "\n", ""); }
      [p] + ([q] + Split(""));
      { SplitNewlineFree(""); }
      [p, q] + [""];
    }
    StepFromSplit("", t, [p, q], "");
    RunOne("", t);
  }

  // ----- Corrected handler: blank pieces are skipped -----

  /** The pieces that are not empty, in order. */
  function NonEmpty(ps: seq<string>): (r: seq<string>)
    ensures forall i :: 0 <= i < |r| ==> r[i] != ""
    ensures forall p :: p in r ==> p in ps
  {
    if |ps| == 0 then []
    else (if ps[0] == "" then [] else [ps[0]]) + NonEmpty(ps[1..])
  }

  lemma {:induction false} NonEmptyAppend(xs: seq<string>, ys: seq<string>)
    ensures NonEmpty(xs + ys) == NonEmpty(xs) + NonEmpty(ys)
    decreases |xs|
  {
    if |xs| == 0 {
      assert xs + ys == ys;
    } else {
      assert (xs + ys)[1..] == xs[1..] + ys;
      NonEmptyAppend(xs[1..], ys);
    }
  }

  /** Dropping empty pieces loses no text. */
  lemma {:induction false} FlattenNonEmpty(ps: seq<string>)
    ensures Flatten(NonEmpty(ps)) == Flatten(ps)
    decreases |ps|
  {
    if |ps| > 0 {
      var head := if ps[0] == "" then [] else [ps[0]];
      FlattenNonEmpty(ps[1..]);
      FlattenAppend(head, NonEmpty(ps[1..]));
      if ps[0] == "" {
        assert Flatten(head) == "";
      } else {
        FlattenSingle(ps[0]);
      }
    }
  }

  /** Pieces that are all non-empty pass through unchanged. */
  lemma {:induction false} NonEmptyKeeps(ps: seq<string>)
    requires forall i :: 0 <= i < |ps| ==> ps[i] != ""
    ensures NonEmpty(ps) == ps
    decreases |ps|
  {
    if |ps| > 0 {
      NonEmptyKeeps(ps[1..]);
      assert ps == [ps[0]] + ps[1..];
    }
  }

  /** One chunk handled, emitting only the non-empty pieces. */
  function StepSkippingBlank(buffer: string, chunk: string): (r: Feed)
    ensures '\n' !in r.buffer
    ensures forall i :: 0 <= i < |r.emitted| ==> r.emitted[i] != ""
  {
    var f := Step(buffer, chunk);
    Feed(NonEmpty(f.emitted), f.buffer)
  }

  function RunSkippingBlank(buffer: string, chunks: seq<string>): (r: Feed)
    requires '\n' !in buffer
    ensures '\n' !in r.buffer
    decreases |chunks|
  {
    if |chunks| == 0 then Feed([], buffer)
    else
      var s := StepSkippingBlank(buffer, chunks[0]);
      var rest := RunSkippingBlank(s.buffer, chunks[1..]);
      Feed(s.emitted + rest.emitted, rest.buffer)
  }

  /** Reference reading of a line-delimited stream, one character at a time:
      a newline ends the current line, which is emitted unless it is empty. */
  function Push(f: Feed, c: char): Feed
  {
    if c != '\n' then Feed(f.emitted, f.buffer + [c])
    else if f.buffer == "" then f
    else Feed(f.emitted + [f.buffer], "")
  }

  function PushAll(f: Feed, s: string): Feed
    decreases |s|
  {
    if |s| == 0 then f else PushAll(Push(f, s[0]), s[1..])
  }

  lemma {:induction false} PushAllAppend(f: Feed, a: string, b: string)
    ensures PushAll(f, a + b) == PushAll(PushAll(f, a), b)
    decreases |a|
  {
    if |a| == 0 {
      assert a + b == b;
    } else {
      assert (a + b)[0] == a[0] && (a + b)[1..] == a[1..] + b;
      PushAllAppend(Push(f, a[0]), a[1..], b);
    }
  }

  lemma {:induction false} PushAllText(e: seq<string>, buffer: string, a: string)
    requires '\n' !in a
    ensures PushAll(Feed(e, buffer), a) == Feed(e, buffer + a)
    decreases |a|
  {
    if |a| > 0 {
      PushAllText(e, buffer + [a[0]], a[1..]);
      assert buffer + [a[0]] + a[1..] == buffer + a;
    } else {
      assert buffer + a == buffer;
    }
  }

  lemma {:induction false} PushAllRun(f: Feed, s: string, i: nat, j: nat)
    requires i <= j <= |s|
    requires forall k :: i <= k < j ==> s[k] == '\n'
    requires f.buffer == ""
    ensures PushAll(f, s[i..j]) == f
    decreases j - i
  {
    if i < j {
      assert s[i..j][0] == '\n' && s[i..j][1..] == s[i + 1..j];
      PushAllRun(f, s, i + 1, j);
    }
  }

  /** Reading a piece and the run of newlines after it emits the piece unless
      it is empty. */
  lemma PushAllPieceAndRun(e: seq<string>, t: string, i: nat, j: nat)
    requires i < j <= |t| && '\n' !in t[..i]
    requires forall k :: i <= k < j ==> t[k] == '\n'
    ensures PushAll(Feed(e, ""), t[..j]) == Feed(e + NonEmpty([t[..i]]), "")
  {
    var a := t[..i];
    PushAllText(e, "", a);
    assert "" + a == a;
    var f2 := Push(Feed(e, a), '\n');
    assert f2 == Feed(e + NonEmpty([a]), "");
    assert t[i..j] == [t[i]] + t[i + 1..j];
    PushAllAppend(Feed(e, a), [t[i]], t[i + 1..j]);
    PushAllRun(f2, t, i + 1, j);
    assert t[..j] == a + t[i..j];
    PushAllAppend(Feed(e, ""), a, t[i..j]);
  }

  lemma InitAndLast(a: string, qs: seq<string>)
    requires |qs| >= 1
    ensures ([a] + qs)[..|qs|] == [a] + qs[..|qs| - 1]
    ensures ([a] + qs)[|qs|] == qs[|qs| - 1]
  {
  }

  /** What reading `t` from an empty line yields, by splitting: the non-empty
      complete pieces are emitted and the last piece is held back. */
  function SplitFeed(e: seq<string>, t: string): Feed
  {
    var ps := Split(t);
    Feed(e + NonEmpty(ps[..|ps| - 1]), ps[|ps| - 1])
  }

  /** Splitting a text and keeping its non-empty complete pieces is reading it
      one character at a time from an empty line. */
  lemma {:induction false} PushAllIsSplit(e: seq<string>, t: string)
    ensures PushAll(Feed(e, ""), t) == SplitFeed(e, t)
    decreases |t|
  {
    if '\n' !in t {
      PushAllText(e, "", t);
      assert "" + t == t;
      assert Split(t)[..0] == [];
      assert e + [] == e;
    } else {
      var i := FirstNewline(t);
      var j := RunEnd(t, i);
      PushAllIsSplit(e + NonEmpty([t[..i]]), t[j..]);
      PushAllIsSplitStep(e, t, i, j);
    }
  }

  /** The inductive step: a first piece and its run of newlines, then the rest. */
  lemma PushAllIsSplitStep(e: seq<string>, t: string, i: nat, j: nat)
    requires '\n' in t && i == FirstNewline(t) && j == RunEnd(t, i)
    requires PushAll(Feed(e + NonEmpty([t[..i]]), ""), t[j..]) == SplitFeed(e + NonEmpty([t[..i]]), t[j..])
    ensures PushAll(Feed(e, ""), t) == SplitFeed(e, t)
  {
    PushAllFirstPiece(e, t, i, j);
    SplitFeedFirstPiece(e, t, i, j);
  }

  /** Reading up to the end of the first run of newlines emits the first piece. */
  lemma PushAllFirstPiece(e: seq<string>, t: string, i: nat, j: nat)
    requires '\n' in t && i == FirstNewline(t) && j == RunEnd(t, i)
    ensures PushAll(Feed(e, ""), t) == PushAll(Feed(e + NonEmpty([t[..i]]), ""), t[j..])
  {
    calc {
      PushAll(Feed(e, ""), t);
      { assert t == t[..j] + t[j..]; PushAllAppend(Feed(e, ""), t[..j], t[j..]); }
      PushAll(PushAll(Feed(e, ""), t[..j]), t[j..]);
      { PushAllPieceAndRun(e, t, i, j); }
      PushAll(Feed(e + NonEmpty([t[..i]]), ""), t[j..]);
    }
  }

  /** Splitting emits the first piece, then what splitting the rest emits. */
  lemma SplitFeedFirstPiece(e: seq<string>, t: string, i: nat, j: nat)
    requires '\n' in t && i == FirstNewline(t) && j == RunEnd(t, i)
    ensures SplitFeed(e + NonEmpty([t[..i]]), t[j..]) == SplitFeed(e, t)
  {
    var a, qs, ps := t[..i], Split(t[j..]), Split(t);
    var n := |qs| - 1;
    calc {
      SplitFeed(e + NonEmpty([a]), t[j..]);
      Feed(e + NonEmpty([a]) + NonEmpty(qs[..n]), qs[n]);
      { NonEmptyInitAndLast(e, a, qs); }
      Feed(e + NonEmpty(([a] + qs)[..|qs|]), ([a] + qs)[|qs|]);
      { SplitFirstPiece(t); assert ps == [a] + qs; assert |ps| - 1 == |qs|; }
      Feed(e + NonEmpty(ps[..|ps| - 1]), ps[|ps| - 1]);
    }
  }

  /** The first piece of a text with a newline, then the pieces of the rest. */
  lemma SplitFirstPiece(t: string)
    requires '\n' in t
    ensures Split(t) == [t[..FirstNewline(t)]] + Split(t[RunEnd(t, FirstNewline(t))..])
  {
  }

  /** Emitting a first piece and then the complete pieces of the rest is
      emitting the complete pieces of both together. */
  lemma NonEmptyInitAndLast(e: seq<string>, a: string, qs: seq<string>)
    requires |qs| >= 1
    ensures e + NonEmpty([a]) + NonEmpty(qs[..|qs| - 1]) == e + NonEmpty(([a] + qs)[..|qs|])
    ensures qs[|qs| - 1] == ([a] + qs)[|qs|]
  {
    SeqAssoc(e, NonEmpty([a]), NonEmpty(qs[..|qs| - 1]));
    NonEmptyAppend([a], qs[..|qs| - 1]);
    InitAndLast(a, qs);
  }

  /** One step of the corrected handler reads its buffer and chunk. */
  lemma StepSkippingBlankReads(e: seq<string>, buffer: string, chunk: string)
    requires '\n' !in buffer
    ensures PushAll(Feed(e, buffer), chunk)
         == Feed(e + StepSkippingBlank(buffer, chunk).emitted, StepSkippingBlank(buffer, chunk).buffer)
  {
    var ps := Split(buffer + chunk);
    calc {
      PushAll(Feed(e, buffer), chunk);
      { PushAllText(e, "", buffer); assert "" + buffer == buffer; }
      PushAll(PushAll(Feed(e, ""), buffer), chunk);
      { PushAllAppend(Feed(e, ""), buffer, chunk); }
      PushAll(Feed(e, ""), buffer + chunk);
      { PushAllIsSplit(e, buffer + chunk); }
      SplitFeed(e, buffer + chunk);
    }
  }

  lemma RunSkippingBlankCons(buffer: string, chunks: seq<string>)
    requires '\n' !in buffer && |chunks| > 0
    ensures var s := StepSkippingBlank(buffer, chunks[0]);
      RunSkippingBlank(buffer, chunks)
      == Feed(s.emitted + RunSkippingBlank(s.buffer, chunks[1..]).emitted, RunSkippingBlank(s.buffer, chunks[1..]).buffer)
  {
  }

  lemma FlattenCons(chunks: seq<string>)
    requires |chunks| > 0
    ensures Flatten(chunks) == chunks[0] + Flatten(chunks[1..])
  {
  }

  /** The corrected handler, for any chunking, is the character reading of
      everything received. */
  lemma {:induction false} RunSkippingBlankReadsCharacters(e: seq<string>, buffer: string, chunks: seq<string>)
    requires '\n' !in buffer
    ensures PushAll(Feed(e, buffer), Flatten(chunks))
         == Feed(e + RunSkippingBlank(buffer, chunks).emitted, RunSkippingBlank(buffer, chunks).buffer)
    decreases |chunks|
  {
    if |chunks| == 0 {
      assert e + [] == e;
    } else {
      var s := StepSkippingBlank(buffer, chunks[0]);
      var rest := RunSkippingBlank(s.buffer, chunks[1..]);
      calc {
        PushAll(Feed(e, buffer), Flatten(chunks));
        { FlattenCons(chunks); PushAllAppend(Feed(e, buffer), chunks[0], Flatten(chunks[1..])); }
        PushAll(PushAll(Feed(e, buffer), chunks[0]), Flatten(chunks[1..]));
        { StepSkippingBlankReads(e, buffer, chunks[0]); }
        PushAll(Feed(e + s.emitted, s.buffer), Flatten(chunks[1..]));
        { RunSkippingBlankReadsCharacters(e + s.emitted, s.buffer, chunks[1..]); }
        Feed(e + s.emitted + rest.emitted, rest.buffer);
        { SeqAssoc(e, s.emitted, rest.emitted); RunSkippingBlankCons(buffer, chunks); }
        Feed(e + RunSkippingBlank(buffer, chunks).emitted, RunSkippingBlank(buffer, chunks).buffer);
      }
    }
  }

  /** With blank pieces skipped, what the stream emits and holds back depends
      only on the text received, not on where the chunk boundaries fall. */
  lemma ChunkingIrrelevant(xs: seq<string>, ys: seq<string>)
    requires Flatten(xs) == Flatten(ys)
    ensures RunSkippingBlank("", xs) == RunSkippingBlank("", ys)
  {
    calc {
      RunSkippingBlank("", xs);
      { ReadsFromStart(xs); }
      PushAll(Feed([], ""), Flatten(xs));
      PushAll(Feed([], ""), Flatten(ys));
      { ReadsFromStart(ys); }
      RunSkippingBlank("", ys);
    }
  }

  /** From an empty start, the corrected handler reads the characters received. */
  lemma ReadsFromStart(xs: seq<string>)
    ensures RunSkippingBlank("", xs) == PushAll(Feed([], ""), Flatten(xs))
  {
    var r := RunSkippingBlank("", xs);
    RunSkippingBlankReadsCharacters([], "", xs);
    assert [] + r.emitted == r.emitted;
  }

  /** The corrected handler emits exactly the non-empty pieces of the handler
      as written, and holds back the same text. */
  lemma {:induction false} SkippingBlankFiltersRun(buffer: string, chunks: seq<string>)
    requires '\n' !in buffer
    ensures RunSkippingBlank(buffer, chunks).emitted == NonEmpty(Run(buffer, chunks).emitted)
    ensures RunSkippingBlank(buffer, chunks).buffer == Run(buffer, chunks).buffer
    decreases |chunks|
  {
    if |chunks| > 0 {
      var s := Step(buffer, chunks[0]);
      SkippingBlankFiltersRun(s.buffer, chunks[1..]);
      NonEmptyAppend(s.emitted, Run(s.buffer, chunks[1..]).emitted);
    }
  }

  /** On the chunking that trips the handler as written, the corrected handler
      emits what the unchunked text gives. */
  lemma BlankLineAtBoundaryCorrected(p: string, q: string)
    requires '\n' !in p && '\n' !in q && |p| > 0 && |q| > 0
    ensures RunSkippingBlank("", [p + "\n", "\n" + q + "\n"]).emitted == [p, q]
  {
    var two := [p + "\n", "\n" + q + "\n"];
    var one := [p + "\n\n" + q + "\n"];
    assert Flatten(two) == Flatten(one) by {
      FlattenPair(p + "\n", "\n" + q + "\n");
      FlattenSingle(p + "\n\n" + q + "\n");
      assert (p + "\n") + ("\n" + q + "\n") == p + "\n\n" + q + "\n";
    }
    calc {
      RunSkippingBlank("", two).emitted;
      { ChunkingIrrelevant(two, one); }
      RunSkippingBlank("", one).emitted;
      { SkippingBlankFiltersRun("", one); }
      NonEmpty(Run("", one).emitted);
      { BlankLineInsideChunk(p, q); }
      NonEmpty([p, q]);
      { NonEmptyKeeps([p, q]); }
      [p, q];
    }
  }

  lemma FlattenSingle(x: string)
    ensures Flatten([x]) == x
  {
    assert [x][1..] == [];
    assert x + "" == x;
  }

  lemma FlattenPair(x: string, y: string)
    ensures Flatten([x, y]) == x + y
  {
    assert [x, y][1..] == [y];
    FlattenSingle(y);
  }
}

=== FILE: slack.dfy ===
/**
 The Slack transport: the constructor's checks and defaults, the request that
 `_request` builds (metadata, text, body fields, URL and query string), and
 `stream`. `log` and `query` are those of `Transport`, with `LogPrefix` as
 the error prefix of `log`.

 Options are a plain object, except `attachments`, which may also be a
 function of the request parameters and the original metadata.
 */
module Slack {
  import opened JsValue
  import opened Lodash
  import opened LogStream
  import opened Transport
  import opened Template

  /** The `attachments` option: a value sent as it is, or a function. */
  datatype Attachments =
    | Fixed(value: Value)
    | Computed(compute: (map<string, Value>, Value) -> Value)

  /** The transport's options: `attachments` is held on its own, and an entry
      under that key in `fields` plays no part in any request. */
  datatype Options = Options(fields: map<string, Value>, attachments: Attachments)

  const NoDomain := "Must have a domain or webhook_url option set."
  const NoToken := "Must have a token option set."

  /** The defaults `_.defaults` fills in; `attachments` defaults to `null` too. */
  const SlackDefaults: map<string, Value> := map[
    "username" := Str("Winston"),
    "parse" := Null,
    "link_names" := Null,
    "unfurl_links" := Null,
    "icon_url" := Bool(false),
    "icon_emoji" := Str(":tophat:")
  ]

  predicate HasWebhook(o: Options)
  {
    Truthy(Get(o.fields, "webhook_url"))
  }

  /** `new Slack(options)`: either a webhook URL, or both a domain and a token,
      must be given; the missing domain is reported before the missing token. */
  function Construct(o: Options): (r: Result<Options>)
    ensures r.Ok? <==> HasWebhook(o) || (Truthy(Get(o.fields, "domain")) && Truthy(Get(o.fields, "token")))
    ensures r.Thrown? && !Truthy(Get(o.fields, "domain")) ==> r.message == NoDomain
    ensures r.Thrown? && Truthy(Get(o.fields, "domain")) ==> r.message == NoToken
    ensures r.Ok? ==> forall k :: k in o.fields && !o.fields[k].Undefined? ==> Get(r.value.fields, k) == o.fields[k]
    ensures r.Ok? ==> forall k :: k in SlackDefaults && Get(o.fields, k).Undefined? ==> Get(r.value.fields, k) == SlackDefaults[k]
    ensures r.Ok? ==> r.value.fields == Defaults(o.fields, SlackDefaults)
    ensures r.Ok? && o.attachments.Computed? ==> r.value.attachments == o.attachments
    ensures r.Ok? && o.attachments.Fixed? ==>
              r.value.attachments == Fixed(if o.attachments.value.Undefined? then Null else o.attachments.value)
  {
    if !HasWebhook(o) && !Truthy(Get(o.fields, "domain")) then Thrown(NoDomain)
    else if !HasWebhook(o) && !Truthy(Get(o.fields, "token")) then Thrown(NoToken)
    else
      var attachments :=
        if o.attachments.Fixed? && o.attachments.value.Undefined? then Fixed(Null) else o.attachments;
      Ok(Options(Defaults(o.fields, SlackDefaults), attachments))
  }

  /** Constructing from the options of a constructed transport gives the same
      options again. */
  lemma ConstructIdempotent(o: Options)
    requires Construct(o).Ok?
    ensures Construct(Construct(o).value) == Construct(o)
  {
    var c := Construct(o).value;
    DefaultsIdempotent(o.fields, SlackDefaults);
    assert Get(c.fields, "webhook_url") == Get(o.fields, "webhook_url");
    assert Get(c.fields, "domain") == Get(o.fields, "domain");
    assert Get(c.fields, "token") == Get(o.fields, "token");
  }

  /** The request parameters after `_request` has normalised the metadata:
      falsy metadata becomes empty text; an `Error` gives its message as the
      message and its stack as the metadata; metadata with at least one key
      becomes its JSON text; metadata with no keys becomes empty text. */
  function NormalizeMeta(params: map<string, Value>, json: Json): (r: map<string, Value>)
    ensures r.Keys == params.Keys + {"meta"} + (if Get(params, "meta").ErrorObj? then {"message"} else {})
    ensures forall k :: k in params && k != "meta" && k != "message" ==> r[k] == params[k]
    ensures !Get(params, "meta").ErrorObj? ==> Get(r, "message") == Get(params, "message")
    ensures !Truthy(Get(params, "meta")) ==> r["meta"] == Str("")
    ensures Get(params, "meta").ErrorObj? ==>
              r["message"] == Str(Get(params, "meta").message) && r["meta"] == Str(Get(params, "meta").stack)
    ensures Truthy(Get(params, "meta")) && !Get(params, "meta").ErrorObj? ==>
              r["meta"] == Str(if KeyCount(Get(params, "meta")).value > 0 then json.stringify(Get(params, "meta")) else "")
  {
    var meta := Get(params, "meta");
    if !Truthy(meta) then params["meta" := Str("")]
    else if meta.ErrorObj? then params["message" := Str(meta.message)]["meta" := Str(meta.stack)]
    else if KeyCount(meta).value > 0 then params["meta" := Str(json.stringify(meta))]
    else params["meta" := Str("")]
  }

  /** The object `_request` serialises as the request body. */
  datatype Payload = Payload(
    channel: Value,
    text: string,
    username: Value,
    parse: Value,
    linkNames: Value,
    attachments: Value,
    unfurlLinks: Value,
    iconUrl: Value,
    iconEmoji: Value)

  /** The payload as the JavaScript object handed to `JSON.stringify`. */
  function PayloadObject(p: Payload): map<string, Value>
  {
    map[
      "channel" := p.channel,
      "text" := Str(p.text),
      "username" := p.username,
      "parse" := p.parse,
      "link_names" := p.linkNames,
      "attachments" := p.attachments,
      "unfurl_links" := p.unfurlLinks,
      "icon_url" := p.iconUrl,
      "icon_emoji" := p.iconEmoji
    ]
  }

  /** What `_request` hands to `request`: `url` is the webhook URL itself or
      the domain's incoming-webhook address, `qs` the query string if any,
      `params` the normalised parameters, and `body` the JSON text of
      `payload`. The method is always POST and `json` always false. */
  datatype Request = Request(
    url: Value,
    qs: Option<map<string, Value>>,
    params: map<string, Value>,
    payload: Payload,
    body: string,
    path: Option<Value>,
    auth: Option<Value>)

  const HookScheme := "https://"
  const HookPath := ".slack.com/services/hooks/incoming-webhook"

  /** The incoming-webhook address of a Slack domain, `util.format` having
      written the domain as `String` does: the domain can be read back from it. */
  function HookUrl(domain: Value): (u: string)
    ensures |u| == |HookScheme| + |ToString(domain)| + |HookPath|
    ensures u[..|HookScheme|] == HookScheme
    ensures u[|HookScheme|..|u| - |HookPath|] == ToString(domain)
    ensures u[|u| - |HookPath|..] == HookPath
  {
    HookScheme + ToString(domain) + HookPath
  }

  /** The `attachments` field of the payload: a fixed value is sent as it
      is, and a function is called with the parameters and the metadata it is
      given. */
  function AttachmentsFor(a: Attachments, params: map<string, Value>, meta: Value): (v: Value)
    ensures a.Fixed? ==> v == a.value
    ensures a.Computed? ==> v == a.compute(params, meta)
  {
    match a
    case Fixed(v) => v
    case Computed(f) => f(params, meta)
  }

  /** `_request(options, callback)` for the given call. */
  function BuildRequest(o: Options, call: Call, json: Json): (r: Request)
    ensures HasWebhook(o) ==> r.url == Get(o.fields, "webhook_url") && r.qs.None?
    ensures !HasWebhook(o) ==>
              r.url == Str(HookUrl(Get(o.fields, "domain"))) && r.qs == Some(map["token" := Get(o.fields, "token")])
    ensures r.params == NormalizeMeta(call.params, json)
    ensures r.payload.text == Text(Get(o.fields, "message"), r.params)
    ensures o.attachments.Fixed? ==> r.payload.attachments == o.attachments.value
    ensures o.attachments.Computed? ==>
              r.payload.attachments == o.attachments.compute(r.params, Get(call.params, "meta"))
    ensures && r.payload.channel == Get(o.fields, "channel")
            && r.payload.username == Get(o.fields, "username")
            && r.payload.parse == Get(o.fields, "parse")
            && r.payload.linkNames == Get(o.fields, "link_names")
            && r.payload.unfurlLinks == Get(o.fields, "unfurl_links")
            && r.payload.iconUrl == Get(o.fields, "icon_url")
            && r.payload.iconEmoji == Get(o.fields, "icon_emoji")
    ensures r.body == json.serialize(Obj(PayloadObject(r.payload)))
    ensures r.path == call.path && r.auth == call.auth
  {
    var params := NormalizeMeta(call.params, json);
    var f := o.fields;
    var payload := Payload(
      Get(f, "channel"),
      Text(Get(f, "message"), params),
      Get(f, "username"),
      Get(f, "parse"),
      Get(f, "link_names"),
      AttachmentsFor(o.attachments, params, Get(call.params, "meta")),
      Get(f, "unfurl_links"),
      Get(f, "icon_url"),
      Get(f, "icon_emoji"));
    var url := if HasWebhook(o) then Get(f, "webhook_url") else Str(HookUrl(Get(f, "domain")));
    var qs := if HasWebhook(o) then None else Some(map["token" := Get(f, "token")]);
    Request(url, qs, params, payload, json.serialize(Obj(PayloadObject(payload))), call.path, call.auth)
  }

  /** With a webhook URL, the domain and token play no part in the request. */
  lemma WebhookIgnoresDomainAndToken(o: Options, domain: Value, token: Value, call: Call, json: Json)
    requires HasWebhook(o)
    ensures var o2 := o.(fields := o.fields["domain" := domain]["token" := token]);
      BuildRequest(o2, call, json).url == BuildRequest(o, call, json).url
      && BuildRequest(o2, call, json).qs == BuildRequest(o, call, json).qs
  {
    var o2 := o.(fields := o.fields["domain" := domain]["token" := token]);
    assert Get(o2.fields, "webhook_url") == Get(o.fields, "webhook_url");
  }

  /** The text of a message whose metadata is an `Error`, without a template:
      the error's message, then its stack after a blank line if there is one. */
  lemma ErrorMetaText(o: Options, params: map<string, Value>, json: Json)
    requires !Truthy(Get(o.fields, "message"))
    requires Get(params, "meta").ErrorObj?
    ensures var e := Get(params, "meta");
      var r := BuildRequest(o, Call(params, None, None), json);
      r.payload.text == (if e.stack == "" then e.message else e.message + "\n\n" + e.stack)
  {
    var e := Get(params, "meta");
    var r := BuildRequest(o, Call(params, None, None), json);
    assert Get(r.params, "message") == Str(e.message) && Get(r.params, "meta") == Str(e.stack);
  }

  const LogPrefix := "winston: slack: "

  /** Without a template, a message whose metadata is not an `Error` is sent
      with the metadata's JSON text after a blank line, or alone when the
      metadata is falsy or has no keys (or its JSON text is empty, which
      `JSON.stringify` never makes of an object with keys). */
  lemma PlainMessageText(o: Options, call: Call, json: Json)
    requires !Truthy(Get(o.fields, "message")) && !Get(call.params, "meta").ErrorObj?
    ensures var meta := Get(call.params, "meta");
      var m := ToString(Get(call.params, "message"));
      BuildRequest(o, call, json).payload.text
      == if KeyCount(meta).Some? && KeyCount(meta).value > 0 && json.stringify(meta) != ""
         then m + "\n\n" + json.stringify(meta) else m
  {
    var r := BuildRequest(o, call, json);
    assert Get(r.params, "message") == Get(call.params, "message");
  }

  /** A callback given in place of the metadata sends the message alone, when
      no template is configured. */
  lemma CallbackAsMetaSendsMessage(o: Options, level: Value, msg: Value, callback: CallbackArg,
                                   response: Response, json: Json)
    requires !Truthy(Get(o.fields, "message"))
    ensures var r := Log(LogPrefix, false, level, msg, CallbackAsMeta, callback, response);
      BuildRequest(o, r.request.value, json).payload.text == ToString(msg)
  {
    var p := LogParams(level, msg, CallbackAsMeta);
    assert KeyCount(Get(p, "meta")) == Some(0);
    PlainMessageText(o, Call(p, None, None), json);
  }

  /** The configuration of the transport's test: a webhook URL, a channel, a
      user name, an emoji and the fenced-metadata template. */
  const TestConfig := Options(map[
      "webhook_url" := Str("http://slack.com/"),
      "channel" := Str("#some-channel"),
      "username" := Str("My Logger"),
      "icon_emoji" := Str(":smiling_imp:"),
      "message" := Str(FencedMeta)
    ], Fixed(Undefined))

  /** The test configuration constructs, keeping what it sets. */
  lemma TestConfigConstructs()
    ensures Construct(TestConfig).Ok?
    ensures var f := Construct(TestConfig).value.fields;
      && Get(f, "webhook_url") == Str("http://slack.com/")
      && Get(f, "message") == Str(FencedMeta)
      && Get(f, "username") == Str("My Logger")
      && Get(f, "icon_emoji") == Str(":smiling_imp:")
  {
    var given := TestConfig.fields;
    assert given["webhook_url"] == Str("http://slack.com/");
    assert given["message"] == Str(FencedMeta);
    assert given["username"] == Str("My Logger");
    assert given["icon_emoji"] == Str(":smiling_imp:");
  }

  /** With the fenced-metadata template, a string message logged with empty
      metadata is sent followed by a blank line and an empty fenced block. */
  lemma FencedTemplateEmptyMeta(o: Options, level: Value, msg: string, json: Json)
    requires Get(o.fields, "message") == Str(FencedMeta)
    ensures BuildRequest(o, Call(LogParams(level, Str(msg), MetaValue(Obj(map[]))), None, None), json).payload.text
         == msg + "\n\n``````"
  {
    var params := LogParams(level, Str(msg), MetaValue(Obj(map[])));
    var n := NormalizeMeta(params, json);
    assert KeyCount(Obj(map[])) == Some(0);
    assert Get(n, "message") == Str(msg) && Get(n, "meta") == Str("");
    calc {
      BuildRequest(o, Call(params, None, None), json).payload.text;
      Text(Str(FencedMeta), n);
      Render(FencedMeta, n);
      { FencedMetaRendering(n); }
      Interpolate(Str(msg)) + "\n\n```" + Interpolate(Str("")) + "```";
      msg + "\n\n```" + "" + "```";
      { assert "\n\n```" + "" + "```" == "\n\n``````"; }
      msg + "\n\n``````";
    }
  }

  /** A message logged with empty metadata to a webhook configured with the
      fenced-metadata template and answered with 200: the callback gets
      `(null, true)` and the request carries the message and an empty fenced
      block to the webhook URL, with no query string. */
  lemma FencedWebhookLogs(o: Options, url: string, level: Value, msg: string, body: Body, json: Json)
    requires Get(o.fields, "webhook_url") == Str(url) && url != ""
    requires Get(o.fields, "message") == Str(FencedMeta)
    ensures var r := Log(LogPrefix, false, level, Str(msg), MetaValue(Obj(map[])), CallbackFn, Received(200, body));
      var request := BuildRequest(o, r.request.value, json);
      && r.reply == Answered(Bool(true))
      && request.url == Str(url) && request.qs.None?
      && request.payload.text == msg + "\n\n``````"
  {
    FencedTemplateEmptyMeta(o, level, msg, json);
  }

  /** The repository's test: its configuration logs `TestMessage` with empty
      metadata, and a 200 answer gives the callback `(null, true)`. */
  lemma TestConfigLogs(json: Json)
    ensures Construct(TestConfig).Ok?
    ensures var o := Construct(TestConfig).value;
      var r := Log(LogPrefix, false, Str("info"), Str("TestMessage"), MetaValue(Obj(map[])), CallbackFn, Received(200, TextBody("")));
      var request := BuildRequest(o, r.request.value, json);
      && r.reply == Answered(Bool(true))
      && request.url == Str("http://slack.com/") && request.qs.None?
      && request.payload.text == "TestMessage" + "\n\n``````"
      && request.payload.username == Str("My Logger")
      && request.payload.iconEmoji == Str(":smiling_imp:")
  {
    TestConfigConstructs();
    FencedWebhookLogs(Construct(TestConfig).value, "http://slack.com/", Str("info"), "TestMessage", TextBody(""), json);
  }

  /** A status of 429 is an error like any other: nothing is sent again. */
  lemma RateLimitIsAnError(level: Value, msg: Value, meta: MetaArg, body: Body)
    ensures Log(LogPrefix, false, level, msg, meta, CallbackFn, Received(429, body)).reply
         == Failed(StatusFailed(LogPrefix + StatusText + "429"))
  {
    RateLimitMessage();
  }

  /** The status code 429 written in decimal. */
  lemma RateLimitMessage()
    ensures StatusMessage(LogPrefix, 429) == LogPrefix + StatusText + "429"
  {
    assert NatString(4) == "4";
    assert NatString(42) == NatString(4) + "2";
    assert NatString(429) == NatString(42) + "9";
  }

  /** `stream(options)` after the response has delivered `chunks`. */
  function Stream(o: Options, options: Option<map<string, Value>>, chunks: seq<string>, json: Json)
    : (r: Streaming<Request>)
    ensures r.request == BuildRequest(o, Hoist(options), json)
    ensures var given := if options.Some? then options.value else map[];
      && r.request.path == (if Truthy(Get(given, "path")) then Some(given["path"]) else None)
      && r.request.auth == (if Truthy(Get(given, "auth")) then Some(given["auth"]) else None)
      && r.request.params == NormalizeMeta(Hoist(options).params, json)
    ensures r.session.events == Events(Run("", chunks).emitted, json.parse)
    ensures r.session.buffer == Run("", chunks).buffer
  {
    Streaming(BuildRequest(o, Hoist(options), json), Consume(chunks, json.parse))
  }
}

=== FILE: template.dfy ===
/**
 The message template both transports hand to lodash's `_.template` with the
 interpolation pattern `/\{\{(.*?)\}\}/g`: every `{{name}}` is replaced by the
 data's `name` property and all other template text is copied verbatim.

 The pattern is lazy and `.` does not match a newline, so a field opened by
 `{{` ends at the FIRST `}}` after it, provided no newline comes in between;
 an opener without such a close is ordinary text.
 */
module Template {
  import opened JsValue

  /** A template read left to right: single characters of text, and fields. */
  datatype Piece = Literal(c: char) | Field(name: string)

  /** A name the pattern can capture: no newline and no `}}` inside. */
  predicate CapturableName(n: string)
  {
    forall i :: 0 <= i < |n| ==> n[i] != '\n' && !(i + 1 < |n| && n[i] == '}' && n[i + 1] == '}')
  }

  /** Index of the first `}}` at or after `j`, unless a newline comes first. */
  function CloseFrom(t: string, j: nat): (r: Option<nat>)
    requires j <= |t|
    ensures r.Some? ==> j <= r.value && r.value + 1 < |t| && t[r.value] == '}' && t[r.value + 1] == '}'
    ensures r.Some? ==> forall i :: j <= i < r.value ==> t[i] != '\n' && !(t[i] == '}' && t[i + 1] == '}')
    ensures r.None? ==> forall i :: j <= i < |t| - 1 && t[i] == '}' && t[i + 1] == '}' ==> '\n' in t[j..i]
    decreases |t| - j
  {
    if j + 1 >= |t| then None
    else if t[j] == '}' && t[j + 1] == '}' then Some(j)
    else if t[j] == '\n' then
      assert forall i :: j < i <= |t| ==> t[j..i][0] == '\n';
      None
    else
      var r := CloseFrom(t, j + 1);
      assert r.None? ==> forall i :: j + 1 <= i <= |t| ==> t[j..i] == [t[j]] + t[j + 1..i];
      r
  }

  /** Whether the template starts with a field the pattern matches. */
  predicate OpensField(t: string)
  {
    |t| >= 2 && t[0] == '{' && t[1] == '{' && CloseFrom(t, 2).Some?
  }

  /** The template as lodash scans it. */
  function Tokenize(t: string): (ps: seq<Piece>)
    ensures forall p :: p in ps && p.Field? ==> CapturableName(p.name)
    decreases |t|
  {
    if |t| == 0 then []
    else if OpensField(t) then
      var k := CloseFrom(t, 2).value;
      assert CapturableName(t[2..k]) by {
        forall i | 0 <= i < k - 2
          ensures t[2..k][i] != '\n' && !(i + 1 < k - 2 && t[2..k][i] == '}' && t[2..k][i + 1] == '}')
        {
          assert t[2..k][i] == t[i + 2];
        }
      }
      [Field(t[2..k])] + Tokenize(t[k + 2..])
    else
      [Literal(t[0])] + Tokenize(t[1..])
  }

  /** The template text a piece stands for. */
  function PieceText(p: Piece): string
  {
    match p
    case Literal(c) => [c]
    case Field(n) => "{{" + n + "}}"
  }

  /** Writes pieces back as template text. */
  function Untokenize(ps: seq<Piece>): string
  {
    if |ps| == 0 then "" else PieceText(ps[0]) + Untokenize(ps[1..])
  }

  /** What an interpolated value contributes: `null` and `undefined` give
      nothing, and anything else its string form, which is empty only for the
      empty string and for an Error with neither name nor message. */
  function Interpolate(v: Value): (s: string)
    ensures v.Str? ==> s == v.s
    ensures !v.Undefined? && !v.Null? ==> s == ToString(v)
    ensures s == "" <==> v.Undefined? || v.Null? || v == Str("") || (v.ErrorObj? && v.name == "" && v.message == "")
  {
    if v.Undefined? || v.Null? then "" else ToString(v)
  }

  function Fill(ps: seq<Piece>, data: map<string, Value>): string
  {
    if |ps| == 0 then ""
    else
      (match ps[0]
       case Literal(c) => [c]
       case Field(n) => Interpolate(Get(data, n)))
      + Fill(ps[1..], data)
  }

  /** No `{{` anywhere in the text. */
  predicate NoOpener(t: string)
  {
    forall i :: 0 <= i < |t| - 1 ==> !(t[i] == '{' && t[i + 1] == '{')
  }

  /** `_.template(t, data, {interpolate: /\{\{(.*?)\}\}/g})`. A template in
      which `{{` never occurs renders as itself. */
  function Render(t: string, data: map<string, Value>): (r: string)
    ensures NoOpener(t) ==> r == t
  {
    assert NoOpener(t) ==> Fill(Tokenize(t), data) == t by {
      if NoOpener(t) {
        FillVerbatim(t, data);
      }
    }
    Fill(Tokenize(t), data)
  }

  /** The names of the fields the scan finds. */
  function FieldNames(t: string): set<string>
  {
    set p | p in Tokenize(t) && p.Field? :: p.name
  }

  /** Filling reads the data only at the names of the fields. */
  lemma {:induction false} FillReadsFields(ps: seq<Piece>, d1: map<string, Value>, d2: map<string, Value>)
    requires forall p :: p in ps && p.Field? ==> Get(d1, p.name) == Get(d2, p.name)
    ensures Fill(ps, d1) == Fill(ps, d2)
    decreases |ps|
  {
    if |ps| > 0 {
      assert forall p :: p in ps[1..] ==> p in ps;
      FillReadsFields(ps[1..], d1, d2);
      assert ps[0] in ps;
    }
  }

  /** The rendering depends on the data only through the fields the template
      names: data that agree on those render alike. */
  lemma RenderReadsFields(t: string, d1: map<string, Value>, d2: map<string, Value>)
    requires forall n :: n in FieldNames(t) ==> Get(d1, n) == Get(d2, n)
    ensures Render(t, d1) == Render(t, d2)
  {
    forall p | p in Tokenize(t) && p.Field?
      ensures Get(d1, p.name) == Get(d2, p.name)
    {
      assert p.name in FieldNames(t);
    }
    FillReadsFields(Tokenize(t), d1, d2);
  }

  lemma UntokenizeCons(p: Piece, ps: seq<Piece>)
    ensures Untokenize([p] + ps) == PieceText(p) + Untokenize(ps)
  {
    assert ([p] + ps)[0] == p && ([p] + ps)[1..] == ps;
  }

  lemma TokenizeField(t: string)
    requires OpensField(t)
    ensures Tokenize(t) == [Field(t[2..CloseFrom(t, 2).value])] + Tokenize(t[CloseFrom(t, 2).value + 2..])
  {
  }

  lemma TokenizeLiteral(t: string)
    requires |t| > 0 && !OpensField(t)
    ensures Tokenize(t) == [Literal(t[0])] + Tokenize(t[1..])
  {
  }

  /** A template that opens a field at 0 and closes it at `k`. */
  lemma FieldSpelling(t: string, k: nat)
    requires 2 <= k && k + 1 < |t| && t[0] == '{' && t[1] == '{' && t[k] == '}' && t[k + 1] == '}'
    ensures t == "{{" + t[2..k] + "}}" + t[k + 2..]
  {
    var u := "{{" + t[2..k] + "}}" + t[k + 2..];
    assert |u| == |t|;
    forall i | 0 <= i < |t|
      ensures u[i] == t[i]
    {
      if 2 <= i < k {
        assert u[i] == t[2..k][i - 2];
      } else if k + 2 <= i {
        assert u[i] == t[k + 2..][i - k - 2];
      }
    }
  }

  /** Scanning loses nothing: the pieces spell the template again. */
  lemma {:induction false} TokenizeRoundTrip(t: string)
    ensures Untokenize(Tokenize(t)) == t
    decreases |t|
  {
    if |t| == 0 {
    } else if OpensField(t) {
      var k := CloseFrom(t, 2).value;
      var rest := t[k + 2..];
      calc {
        Untokenize(Tokenize(t));
        { TokenizeField(t); }
        Untokenize([Field(t[2..k])] + Tokenize(rest));
        { UntokenizeCons(Field(t[2..k]), Tokenize(rest)); }
        "{{" + t[2..k] + "}}" + Untokenize(Tokenize(rest));
        { TokenizeRoundTrip(rest); }
        "{{" + t[2..k] + "}}" + rest;
        { FieldSpelling(t, k); }
        t;
      }
    } else {
      calc {
        Untokenize(Tokenize(t));
        { TokenizeLiteral(t); }
        Untokenize([Literal(t[0])] + Tokenize(t[1..]));
        { UntokenizeCons(Literal(t[0]), Tokenize(t[1..])); }
        [t[0]] + Untokenize(Tokenize(t[1..]));
        { TokenizeRoundTrip(t[1..]); }
        [t[0]] + t[1..];
        t;
      }
    }
  }

  /** Text without any `{` is copied to the output unchanged, ahead of the rest. */
  lemma {:induction false} RenderTextPrefix(a: string, rest: string, data: map<string, Value>)
    requires '{' !in a
    ensures Render(a + rest, data) == a + Render(rest, data)
    decreases |a|
  {
    if |a| > 0 {
      var t := a + rest;
      assert t[0] == a[0] && !OpensField(t);
      assert t[1..] == a[1..] + rest;
      RenderTextPrefix(a[1..], rest, data);
      var ps := Tokenize(t);
      assert ps[0] == Literal(a[0]) && ps[1..] == Tokenize(t[1..]);
      assert a == [a[0]] + a[1..];
    } else {
      assert a + rest == rest;
    }
  }

  /** A template in which `{{` never occurs is scanned into its characters and
      filled back as itself. */
  lemma {:induction false} FillVerbatim(t: string, data: map<string, Value>)
    requires NoOpener(t)
    ensures Fill(Tokenize(t), data) == t
    decreases |t|
  {
    if |t| > 0 {
      assert !OpensField(t);
      FillVerbatim(t[1..], data);
      var ps := Tokenize(t);
      assert ps[0] == Literal(t[0]) && ps[1..] == Tokenize(t[1..]);
      assert t == [t[0]] + t[1..];
    }
  }

  lemma {:induction false} CloseAfterName(t: string, j: nat, k: nat)
    requires j <= k && k + 1 < |t| && t[k] == '}' && t[k + 1] == '}'
    requires forall i :: j <= i < k ==> t[i] != '}' && t[i] != '\n'
    ensures CloseFrom(t, j) == Some(k)
    decreases k - j
  {
    if j < k {
      CloseAfterName(t, j + 1, k);
    }
  }

  /** A field `{{n}}` is replaced by the data's `n` and the text after it follows. */
  lemma RenderField(n: string, rest: string, data: map<string, Value>)
    requires '\n' !in n && '}' !in n
    ensures Render("{{" + n + "}}" + rest, data) == Interpolate(Get(data, n)) + Render(rest, data)
  {
    var t := "{{" + n + "}}" + rest;
    var k := |n| + 2;
    assert forall i :: 2 <= i < k ==> t[i] == n[i - 2];
    CloseAfterName(t, 2, k);
    assert t[2..k] == n && t[k + 2..] == rest;
    var ps := Tokenize(t);
    assert ps[0] == Field(n) && ps[1..] == Tokenize(rest);
  }

  /** Two fields, each followed by plain text. */
  lemma {:induction false} RenderTwoFields(a: string, x: string, b: string, y: string, data: map<string, Value>)
    requires '\n' !in a && '}' !in a && '\n' !in b && '}' !in b
    requires '{' !in x && '{' !in y
    ensures Render("{{" + a + "}}" + x + "{{" + b + "}}" + y, data)
         == Interpolate(Get(data, a)) + x + Interpolate(Get(data, b)) + y
  {
    var tail := "{{" + b + "}}" + y;
    var t := "{{" + a + "}}" + x + "{{" + b + "}}" + y;
    assert t == "{{" + a + "}}" + (x + tail);
    calc {
      Render(t, data);
      { RenderField(a, x + tail, data); }
      Interpolate(Get(data, a)) + Render(x + tail, data);
      { RenderTextPrefix(x, tail, data); }
      Interpolate(Get(data, a)) + (x + Render(tail, data));
      { RenderField(b, y, data); }
      Interpolate(Get(data, a)) + (x + (Interpolate(Get(data, b)) + Render(y, data)));
      { RenderTextPrefix(y, "", data); assert y + "" == y; }
      Interpolate(Get(data, a)) + x + Interpolate(Get(data, b)) + y;
    }
  }

  /** The template of the transport's test configuration,
      `{{message}}` + two newlines + a fenced `{{meta}}`. */
  const FencedMeta := "{{" + "message" + "}}" + "\n\n```" + "{{" + "meta" + "}}" + "```"

  lemma FencedMetaRendering(data: map<string, Value>)
    ensures Render(FencedMeta, data)
         == Interpolate(Get(data, "message")) + "\n\n```" + Interpolate(Get(data, "meta")) + "```"
  {
    RenderTwoFields("message", "\n\n```", "meta", "```", data);
  }
}

=== FILE: transport.dfy ===
/**
 The logic the Slack and HipChat transports share, written once: the text of
 a message, how a `stream` call lifts `path` and `auth` out of its options,
 and what the callbacks of `log` and `query` receive for a given response.

 The HTTP exchange itself is an input: a `Response` is what the `request`
 library hands the completion callback.
 */
module Transport {
  import opened JsValue
  import opened Template
  import opened LogStream

  /** The outgoing text: the configured template rendered over the request
      parameters, or, with no template, the message followed by a blank line
      and the metadata when the metadata is not empty. */
  function Text(template: Value, params: map<string, Value>): (r: string)
    ensures Truthy(template) ==> r == Render(ToString(template), params)
    ensures !Truthy(template) ==> |r| >= |ToString(Get(params, "message"))|
    ensures !Truthy(template) ==> r[..|ToString(Get(params, "message"))|] == ToString(Get(params, "message"))
    ensures !Truthy(template) && Truthy(Get(params, "meta")) ==>
              r[|ToString(Get(params, "message"))|..] == "\n\n" + ToString(Get(params, "meta"))
    ensures !Truthy(template) && !Truthy(Get(params, "meta")) ==> r == ToString(Get(params, "message"))
  {
    if Truthy(template) then Render(ToString(template), params)
    else
      var m := ToString(Get(params, "message"));
      var meta := Get(params, "meta");
      var r := m + (if Truthy(meta) then "\n\n" + ToString(meta) else "");
      assert r[..|m|] == m;
      r
  }

  /** The template `{{message}}`. */
  const MessageTemplate := "{{" + "message" + "}}"

  /** The template `{{message}}`, a blank line, `{{meta}}`. */
  const MessageMetaTemplate := MessageTemplate + "\n\n" + "{{" + "meta" + "}}"

  /** Without a template, the text is what the template `{{message}}`, a blank
      line and `{{meta}}` gives, for a string message and non-empty string
      metadata. */
  lemma PlainTextIsMessageThenMeta(params: map<string, Value>, message: string, meta: string)
    requires Get(params, "message") == Str(message) && Get(params, "meta") == Str(meta) && meta != ""
    ensures Text(Null, params) == Render(MessageMetaTemplate, params)
  {
    assert MessageMetaTemplate == "{{" + "message" + "}}" + "\n\n" + "{{" + "meta" + "}}" + "";
    RenderTwoFields("message", "\n\n", "meta", "", params);
  }

  /** Without a template and with empty metadata, the text is what the template
      `{{message}}` gives for a string message. */
  lemma PlainTextIsMessage(params: map<string, Value>, message: string)
    requires Get(params, "message") == Str(message) && !Truthy(Get(params, "meta"))
    ensures Text(Null, params) == Render(MessageTemplate, params)
  {
    assert MessageTemplate == "{{" + "message" + "}}" + "";
    RenderField("message", "", params);
  }

  // ----- `stream` options -----

  /** The parameters of a streaming request, with `path` and `auth` lifted
      out of them when they are truthy. */
  datatype Call = Call(params: map<string, Value>, path: Option<Value>, auth: Option<Value>)

  /** Lifts a truthy `key` out of `params`. */
  function Lift(params: map<string, Value>, key: string): (r: (map<string, Value>, Option<Value>))
    ensures Truthy(Get(params, key)) ==> r.1 == Some(params[key]) && r.0 == params - {key}
    ensures !Truthy(Get(params, key)) ==> r.1 == None && r.0 == params
  {
    if Truthy(Get(params, key)) then (params - {key}, Some(params[key])) else (params, None)
  }

  /** `options || {}`, then `path` and `auth` moved out of the parameters. */
  function Hoist(options: Option<map<string, Value>>): (c: Call)
    ensures var given := if options.Some? then options.value else map[];
      && c.path == (if Truthy(Get(given, "path")) then Some(given["path"]) else None)
      && c.auth == (if Truthy(Get(given, "auth")) then Some(given["auth"]) else None)
    ensures !Truthy(Get(c.params, "path")) && !Truthy(Get(c.params, "auth"))
    ensures var given := if options.Some? then options.value else map[];
      c.params.Keys <= given.Keys
    ensures var given := if options.Some? then options.value else map[];
      forall k :: k in given && !(k == "path" && c.path.Some?) && !(k == "auth" && c.auth.Some?) ==>
        k in c.params && c.params[k] == given[k]
  {
    var params := if options.Some? then options.value else map[];
    var (p1, path) := Lift(params, "path");
    var (p2, auth) := Lift(p1, "auth");
    Call(p2, path, auth)
  }

  /** Puts lifted `path` and `auth` back into the parameters. */
  function Restore(c: Call): map<string, Value>
  {
    var p := if c.auth.Some? then c.params["auth" := c.auth.value] else c.params;
    if c.path.Some? then p["path" := c.path.value] else p
  }

  /** Hoisting loses nothing: the options come back from the call. */
  lemma HoistRoundTrip(options: map<string, Value>)
    ensures Restore(Hoist(Some(options))) == options
  {
    var c := Hoist(Some(options));
    var p := if c.auth.Some? then c.params["auth" := c.auth.value] else c.params;
    assert p == options - (if c.path.Some? then {"path"} else {});
  }

  // ----- Callback outcomes -----

  /** What the `request` library reports: a failure before any response, or a
      status code and a body. */
  datatype Response = ConnectionFailed(reason: string) | Received(status: int, body: Body)

  /** A body arrives as text or already as a value. */
  datatype Body = TextBody(text: string) | ValueBody(value: Value)

  /** The error a callback is given. */
  datatype Failure =
    | RequestFailed(reason: string)   // the error from `request`, passed on
    | StatusFailed(message: string)   // an `Error` made for a status other than 200
    | ParseFailed(text: string)       // the `SyntaxError` of `JSON.parse` on this text

  /** How a call ends. */
  datatype Reply =
    | Answered(value: Value)          // the callback gets `(null, value)`
    | Failed(failure: Failure)        // the callback gets the error
    | Finished                        // nothing to call back
    | Crashed(message: string)        // a `TypeError` is thrown

  /** The request a call builds, if it gets that far, and how it ends. */
  datatype Outcome<R> = Outcome(request: Option<R>, reply: Reply)

  /** How `log` was given its metadata: a value, or the callback in its place. */
  datatype MetaArg = MetaValue(value: Value) | CallbackAsMeta

  /** The parameters `log` hands to `_request`; a callback given in place of
      the metadata leaves an empty object as the metadata. */
  function LogParams(level: Value, msg: Value, meta: MetaArg): (p: map<string, Value>)
    ensures p.Keys == {"message", "meta", "level"}
    ensures p["message"] == msg && p["level"] == level
    ensures p["meta"] == (if meta.MetaValue? then meta.value else Obj(map[]))
  {
    map["message" := msg, "meta" := (if meta.MetaValue? then meta.value else Obj(map[])), "level" := level]
  }

  const StatusText := "HTTP Status Code: "

  /** The message of the error made for a status other than 200. */
  function StatusMessage(prefix: string, status: int): (m: string)
    ensures |m| > |prefix + StatusText|
    ensures m[..|prefix + StatusText|] == prefix + StatusText
  {
    var m := prefix + StatusText + DecimalString(status);
    assert m[..|prefix + StatusText|] == prefix + StatusText;
    m
  }

  /** The status code can be read back from the end of the message. */
  lemma StatusMessageNamesStatus(prefix: string, status: int)
    ensures var digits := StatusMessage(prefix, status)[|prefix + StatusText|..];
      if status >= 0 then AllDigits(digits) && DigitsValue(digits) == status
      else digits[0] == '-' && AllDigits(digits[1..]) && DigitsValue(digits[1..]) == -status
  {
    var m := StatusMessage(prefix, status);
    assert m[|prefix + StatusText|..] == DecimalString(status);
  }

  /** The fourth argument of `log`: a function, or some other value (often
      `undefined`) whose truthiness `if (callback)` tests. */
  datatype CallbackArg = CallbackFn | NotCallable(value: Value)

  /** The `log` completion callback, after the request has been sent. */
  function LogReply(prefix: string, response: Response, callback: CallbackArg): (r: Reply)
    ensures response.ConnectionFailed? ==>
              r == (if callback.CallbackFn? then Failed(RequestFailed(response.reason)) else Crashed(NotAFunction))
    ensures response.Received? && response.status != 200 ==>
              r == (if callback.CallbackFn? then Failed(StatusFailed(StatusMessage(prefix, response.status)))
                    else Crashed(NotAFunction))
    ensures response.Received? && response.status == 200 ==>
              r == (if callback.CallbackFn? then Answered(Bool(true))
                    else if Truthy(callback.value) then Crashed(NotAFunction) else Finished)
    ensures callback.CallbackFn? ==> !r.Crashed? && !r.Finished?
  {
    var err :=
      match response
      case ConnectionFailed(reason) => Some(RequestFailed(reason))
      case Received(status, _) =>
        if status != 200 then Some(StatusFailed(StatusMessage(prefix, status))) else None;
    match callback
    case CallbackFn => if err.Some? then Failed(err.value) else Answered(Bool(true))
    case NotCallable(v) => if err.Some? || Truthy(v) then Crashed(NotAFunction) else Finished
  }

  /** A `log` request ends without an error exactly when the service answers
      200 and the fourth argument is a function or falsy. */
  lemma LogSucceedsIffOk(prefix: string, response: Response, callback: CallbackArg)
    ensures LogReply(prefix, response, callback) in {Answered(Bool(true)), Finished}
        <==> response.Received? && response.status == 200 && (callback.CallbackFn? || !Truthy(callback.value))
  {
  }

  /** `log(level, msg, meta, callback)` of either transport, `prefix` being
      its error prefix: `silent` is the transport's flag, `callback` the
      fourth argument, and `response` what the service answers. The request
      is given by the call handed to `_request`. A callback given in place of
      the metadata takes the place of the fourth argument. */
  function Log(prefix: string, silent: bool, level: Value, msg: Value, meta: MetaArg, callback: CallbackArg,
               response: Response): (r: Outcome<Call>)
    ensures silent ==> r.request.None? && r.reply == (if callback.CallbackFn? then Answered(Bool(true)) else Crashed(NotAFunction))
    ensures !silent ==> r.request == Some(Call(LogParams(level, msg, meta), None, None))
    ensures !silent && response.ConnectionFailed? ==>
              r.reply == (if callback.CallbackFn? || meta.CallbackAsMeta? then Failed(RequestFailed(response.reason))
                          else Crashed(NotAFunction))
    ensures !silent && response.Received? && response.status != 200 ==>
              r.reply == (if callback.CallbackFn? || meta.CallbackAsMeta?
                          then Failed(StatusFailed(StatusMessage(prefix, response.status)))
                          else Crashed(NotAFunction))
    ensures !silent && response.Received? && response.status == 200 ==>
              r.reply == (if callback.CallbackFn? || meta.CallbackAsMeta? then Answered(Bool(true))
                          else if Truthy(callback.value) then Crashed(NotAFunction) else Finished)
  {
    if silent then Outcome(None, if callback.CallbackFn? then Answered(Bool(true)) else Crashed(NotAFunction))
    else Outcome(Some(Call(LogParams(level, msg, meta), None, None)),
                 LogReply(prefix, response, if meta.CallbackAsMeta? then CallbackFn else callback))
  }

  /** The `query` completion callback; the callback itself is always called. */
  function QueryReply(response: Response, parse: string -> Option<Value>): (r: Reply)
    ensures response.ConnectionFailed? ==> r == Failed(RequestFailed(response.reason))
    ensures response.Received? && response.status != 200 ==> r == Failed(StatusFailed(StatusMessage("", response.status)))
    ensures response.Received? && response.status == 200 && response.body.ValueBody? ==> r == Answered(response.body.value)
    ensures response.Received? && response.status == 200 && response.body.TextBody? ==>
              r == (if parse(response.body.text).Some? then Answered(parse(response.body.text).value)
                    else Failed(ParseFailed(response.body.text)))
    ensures !r.Finished? && !r.Crashed?
  {
    match response
    case ConnectionFailed(reason) => Failed(RequestFailed(reason))
    case Received(status, body) =>
      if status != 200 then Failed(StatusFailed(StatusMessage("", status)))
      else
        match body
        case ValueBody(v) => Answered(v)
        case TextBody(t) =>
          match parse(t)
          case Some(v) => Answered(v)
          case None => Failed(ParseFailed(t))
  }

  /** `query(options, callback)` of either transport: `query` is what
      winston's `normalizeQuery` made of the options, and is handed to
      `_request` as the parameters. */
  function Query(query: map<string, Value>, response: Response, parse: string -> Option<Value>): (r: Outcome<Call>)
    ensures r.request == Some(Call(query, None, None))
    ensures response.ConnectionFailed? ==> r.reply == Failed(RequestFailed(response.reason))
    ensures response.Received? && response.status != 200 ==>
              r.reply == Failed(StatusFailed(StatusMessage("", response.status)))
    ensures response.Received? && response.status == 200 && response.body.ValueBody? ==>
              r.reply == Answered(response.body.value)
    ensures response.Received? && response.status == 200 && response.body.TextBody? ==>
              r.reply == (if parse(response.body.text).Some? then Answered(parse(response.body.text).value)
                          else Failed(ParseFailed(response.body.text)))
  {
    Outcome(Some(Call(query, None, None)), QueryReply(response, parse))
  }

  /** A stream: the request it sends and what it has emitted after the chunks
      received so far. */
  datatype Streaming<R> = Streaming(request: R, session: Session)

  /** A text body that answers 200 is handed to the callback parsed, or its
      parse error is. */
  lemma QueryAnswersParsedBody(text: string, parse: string -> Option<Value>, v: Value)
    ensures QueryReply(Received(200, TextBody(text)), parse) == Answered(v) <==> parse(text) == Some(v)
    ensures QueryReply(Received(200, TextBody(text)), parse).Failed? <==> parse(text).None?
  {
  }

  /** `log` and `query` fail on the same responses, except that only `query`
      reads the body. */
  lemma LogAndQueryFailAlike(prefix: string, response: Response, parse: string -> Option<Value>)
    requires response.Received? ==> response.body.ValueBody?
    ensures LogReply(prefix, response, CallbackFn).Failed? <==> QueryReply(response, parse).Failed?
  {
  }
}
